=== FILE: README.md ===
# identity.api — a Dafny model of its core

Leblum's identity API is an Express service backed by MongoDB. It keeps users,
organizations, roles and permissions. It issues JSON web tokens at login and renews them.
It guards its routers with a token middleware and role gates. It registers new users into a
guest organization. It seeds an empty database with a system organization, a system user,
roles and permissions. The repository also has an Angular client. Two pieces of that client
belong to the core: the password-reset form's field check and the services' error mapping.

The model is organised as follows:

- `identifiers.dfy`: document ids as natural numbers, handed out in increasing order. It
  also gives an id's text form and the cast back from text. The cast's failure stands for
  Mongoose's cast error; which texts fail differs from ObjectId's.
- `models.dfy`: the documents (user, organization, role, permission, email verification,
  token claims) and the schema's defaults, unique indexes and the `select: false` password.
- `store.dfy`: the database, a class whose maps the saves update in place. `FindOne`
  returns the earliest matching document.
- `repositories.dfy`: the lookups of the user and organization repositories, role and
  permission population, and the password update.
- `enumerations.dfy`: the two numeric enumerations and `getValuesFromEnum`.
- `http.dfy`: requests and responses as values; where a token is read from; the
  authentication-failure response.
- `api_error_handler.dfy`: `sendError` and the global error handler.
- `authorization.dfy`: the role check and the `permit` gate.
- `authentication.dfy`: `authenticate`, `refreshToken` and `authMiddleware`. bcrypt's
  comparison, the token signer and verifier, and the clock are parameters.
- `controllers.dfy`: the controllers' hooks (href, password hashing, password blanking) and
  the ownership rules. The base controller's `isOwnerInOwnership` is a parameter.
- `user_controller.dfy`: the supplier upgrade.
- `registration.dfy`: `register`, as written and with the early return it evidently lacks.
  The user repository's `createFromBody` is a parameter.
- `bootstrap.dfy`: the two generations of the database seed.
- `server.dfy`: the Express stack `routes()` builds, walked layer by layer, then the
  handlers and the error handler.
- `client.dfy`: the password-reset form and the client's `handleError`.

## Model

| member | source | states |
|---|---|---|
| `Identifiers.IdText` | server/controllers/authentication.controller.ts:42 | an id's text is a non-empty run of decimal digits |
| `Identifiers.ParseId` | server/controllers/authentication.controller.ts:82 | the cast from text succeeds exactly on non-empty all-digit text |
| `Identifiers.ParseIdText` | server/controllers/authentication.controller.ts:42-82 | casting an id's text back gives the id (round trip) |
| `Identifiers.IdTextInjective` | server/controllers/authentication.controller.ts:42 | distinct ids have distinct texts |
| `Models.NewUser` | server/models/user.ts:35-40 | a new user has the schema defaults: token not expired, email not verified, active, no roles or organization |
| `Models.DefaultSelection` | server/models/user.ts:34 | a default query returns the user without its password and otherwise unchanged |
| `Models.AddUserKeepsUniqueEmails` | server/models/user.ts:32 | adding a user keeps emails unique iff its email is not already taken |
| `Models.AddOrganizationKeepsUniqueNames` | server/models/organization.ts:30 | adding an organization keeps names unique iff its name is not already taken |
| `Store.FindOne` | server/repositories/concrete/organization.repository.ts:16 | `findOne` returns a matching document, the earliest such; it returns nothing iff none matches |
| `Store.Store.constructor` | src/server/config/database/database-bootstrap.ts:20 | a new database is empty and consistent |
| `Store.Store.InsertUser` | server/models/user.ts:32-34 | a save without a password fails validation; a taken email fails on the unique index; otherwise the user gets the next id and nothing else changes |
| `Store.Store.InsertOrganization` | server/models/organization.ts:30 | a taken name fails on the unique index; otherwise the organization gets the next id |
| `Store.Store.InsertRole` | src/server/config/database/database-bootstrap.ts:79 | the role gets the next id; nothing else changes |
| `Store.Store.InsertPermission` | src/server/config/database/database-bootstrap.ts:103 | the permission gets the next id; nothing else changes |
| `Store.Store.InsertVerification` | src/controllers/registration.controller.ts:66 | the verification record gets the next id; nothing else changes |
| `Store.Store.SaveUser` | src/repositories/concrete/user.repository.ts:30 | re-saving a user succeeds iff it has a password and no other user holds its email; only that user changes |
| `Store.Store.SaveOrganization` | src/server/config/database/database-bootstrap.ts:51-52 | re-saving an organization succeeds iff no other organization holds its name |
| `Repositories.Populate` | src/repositories/concrete/user.repository.ts:19-23 | population keeps the ids that resolve, in order, with their documents; if all resolve, all come back |
| `Repositories.PopulateRoles` | src/repositories/concrete/user.repository.ts:19-23 | each populated role carries its own permissions, populated |
| `Repositories.FindUserByEmail` | src/repositories/concrete/user.repository.ts:13-15 | finds a user iff the email is taken; that user holds the email and comes back without its password |
| `Repositories.GetUserForPasswordCheck` | src/repositories/concrete/user.repository.ts:17-25 | finds the same user as `findUserByEmail`, with its password and populated roles |
| `Repositories.FindUserByEmailUnique` | src/repositories/concrete/user.repository.ts:13-15 | with unique emails, the lookup finds exactly the holder of the email |
| `Repositories.FindById` | server/controllers/user.controller.ts:45 | text that is not an id raises a cast error; otherwise the document with that id, if any |
| `Repositories.SingleUser` | server/controllers/authentication.controller.ts:82 | `single(id)`: cast error on bad text, else the user with that id and its populated roles, if any |
| `Repositories.SingleUserFindsOwnId` | server/controllers/authentication.controller.ts:82 | loading a stored user by its own id text finds that user |
| `Repositories.WithPassword` | src/repositories/concrete/user.repository.ts:29 | only the password field is replaced |
| `Repositories.UpdatePassword` | src/repositories/concrete/user.repository.ts:27-31 | bad id text raises a cast error; an unknown id raises on the null user; otherwise only that user's password changes |
| `Repositories.PasswordCheckSeesUpdate` | src/repositories/concrete/user.repository.ts:17-31 | after a password update, the password check for the user's email sees the new hash |
| `Repositories.GetOrgByName` | server/repositories/concrete/organization.repository.ts:15-18 | finds an organization iff one has the name; it has the name and is the earliest such |
| `Repositories.GetOrgByNameUnique` | server/repositories/concrete/organization.repository.ts:15-18 | with unique names, the lookup finds exactly that organization |
| `Repositories.GetGuestOrganization` | server/repositories/concrete/organization.repository.ts:20-22 | finds the organization named "guest", iff there is one |
| `Repositories.GetSystemOrganization` | server/repositories/concrete/organization.repository.ts:24-26 | finds the organization named "system", iff there is one |
| `Repositories.LegacyGetGuestOrganization` | src/repositories/concrete/organization.repository.ts:15-18 | the earlier guest lookup finds the organization named "guest", iff there is one |
| `Repositories.LegacyGetSystemOrganization` | src/repositories/concrete/organization.repository.ts:20-23 | the earlier system lookup finds the organization named "system", iff there is one |
| `Repositories.LegacyLookupsAgree` | src/repositories/concrete/organization.repository.ts:15-23 | both generations' guest and system lookups give the same answer |
| `Repositories.GetRoleByName` | server/controllers/user.controller.ts:52 | finds a role iff one has the name; it is the earliest such |
| `Enumerations.OrganizationType.Value` | server/enumerations.ts:1-5 | system, guest and supplier are numbered within 1..3 |
| `Enumerations.OwnershipType.Value` | server/enumerations.ts:7-11 | supplier, organization and user are numbered within 1..3 |
| `Enumerations.ValuesIdentifyMembers` | server/enumerations.ts:1-11 | each enumeration's numbers identify its members |
| `Enumerations.GetValuesFromEnum` | server/enumerations.ts:15-22 | one value per key of the object, in key order |
| `Enumerations.OrganizationTypeValues` | server/enumerations.ts:15-22 | on the compiled `OrganizationType`, the helper lists the three names and then 1, 2, 3; every member's number is among them |
| `Enumerations.OwnershipTypeValues` | server/enumerations.ts:15-22 | likewise for `OwnershipType` |
| `Http.TokenFromRequest` | server/controllers/authentication.controller.ts:119 | the token is the first truthy one of body, query and `x-access-token` header; there is none iff all three are falsy |
| `Http.SendAuthFailure` | src/controllers/registration.controller.ts:78-83 | the given status with `{message: 'Authentication Failed', description}` |
| `ApiErrorHandler.SendError` | server/api-error-handler.ts:7-15 | the given status; the body repeats the message, status, error code and exception |
| `ApiErrorHandler.StatusOrDefault` | server/api-error-handler.ts:22 | an error's status, or 500 when it has none or it is 0 |
| `ApiErrorHandler.MessageOrDefault` | server/api-error-handler.ts:29 | an error's message, or "Server Error" when it is missing or empty |
| `ApiErrorHandler.HandleApiError` | server/api-error-handler.ts:17-36 | status 401 for a `JWTExpressError`, else the error's status or 500. The body carries that status, the message, the request's URL, method and body, and the stack only when configured |
| `ApiErrorHandler.StatusAndBodyStatus` | server/api-error-handler.ts:22-30 | the HTTP status and the body's status differ only for a `JWTExpressError`; one without a status is sent 401 with body status 500 |
| `ApiErrorHandler.FaultError` | server/controllers/authentication.controller.ts:107 | an error passed on with `next(error)` carries no status and is not a `JWTExpressError`; it keeps an explicit message, and otherwise carries the runtime's message text; its name is the kind of fault |
| `Authz.CheckIfRoleExists` | src/server/controllers/authorization.ts:10-12 | true iff some user role is among the allowed roles |
| `Authz.CheckIfRoleExistsSymmetric` | src/server/controllers/authorization.ts:10-12 | the check is symmetric in its two lists |
| `Authz.CheckIfRoleExistsEmpty` | src/server/controllers/authorization.ts:10-12 | an empty list on either side never passes |
| `Authz.CheckIfRoleExistsMonotone` | src/server/controllers/authorization.ts:10-12 | allowing more roles never refuses a user the check admitted |
| `Authz.PermitAt` | src/server/controllers/authorization.ts:14-23 | `permit` passes iff the stored token has a user id and an allowed role; otherwise 403 "You are not in the correct role for this resource" |
| `Authz.Permit` | src/server/controllers/authorization.ts:14-23 | the same, reading the token where the token middleware stores it |
| `Authz.LegacyPermit` | src/controllers/authorization.ts:14-23 | the earlier generation's gate: the same rule at its own token location |
| `Authz.PermitReadsOnlyTheToken` | src/server/controllers/authorization.ts:16-17 | the gate's answer depends on nothing but the stored token |
| `Authz.PermitMonotone` | src/server/controllers/authorization.ts:14-23 | a gate allowing more roles lets through everything a narrower one did |
| `Authentication.PayloadFor` | server/controllers/authentication.controller.ts:41-47 | the claims hold the user's id and organization id as text, its role names in order, and a deadline one day ahead |
| `Authentication.IssueToken` | server/controllers/authentication.controller.ts:49-61 | 200 with the claims and a token signed for 25 hours |
| `Authentication.Authenticate` | server/controllers/authentication.controller.ts:30-63 | an unknown email is answered 401 with the null-read error; a missing password on either side is answered 401 with the hash check's error; a wrong password is answered 401 "Password does not match"; success iff the password compares equal to the stored hash, and then the token is for the holder of the email |
| `Authentication.HardExpiryAfterSoftExpiry` | server/controllers/authentication.controller.ts:46-50 | the signed lifetime exceeds the soft deadline by one hour |
| `Authentication.AuthenticateNamesTheUser` | server/controllers/authentication.controller.ts:32-42 | with unique emails, a successful login's claims name the holder of the email, and the id casts back to that user |
| `Authentication.Renew` | server/controllers/authentication.controller.ts:82-107 | a failed load is passed on as an error (cast error or null user); a flagged user is answered 401 "The user must login again to refresh their credentials", with no token; anyone else is re-issued claims built from the stored user |
| `Authentication.RefreshToken` | server/controllers/authentication.controller.ts:70-115 | no token gives 403; a refused token gives 401; a verified token is renewed for the user its claims name |
| `Authentication.RefreshDependsOnlyOnUserId` | server/controllers/authentication.controller.ts:82-105 | two verified tokens naming the same user renew to the same response, whatever else the old claims said |
| `Authentication.IssuedTokenRenews` | server/controllers/authentication.controller.ts:83-105 | a token for a stored user whose flag is clear renews into a token for the same user |
| `Authentication.FlaggedUserCannotRenew` | server/controllers/authentication.controller.ts:83-85 | a verified token naming a stored user whose `isTokenExpired` flag is set gets exactly the 401 "must login again" answer, and no token |
| `Authentication.ForwardedRenewalIsServerError` | server/controllers/authentication.controller.ts:82-107 | a renewal is passed to `next(error)` exactly when the verified claims name no stored user (or no id at all), and the last error handler then answers 500 with the error's message or "Server Error" |
| `Authentication.AuthDecision` | server/controllers/authentication.controller.ts:117-134 | admitted iff there is a token and the verifier accepts it; no token gives 403; a refused one gives 401 carrying the verifier's error |
| `Authentication.Exchange.constructor` | server/controllers/authentication.controller.ts:117 | a request not yet answered or handed on |
| `Authentication.Exchange.AuthMiddleware` | server/controllers/authentication.controller.ts:117-138 | admitted: the claims are stored on the request and `next` is called once; refused: exactly one failure response is written |
| `Authentication.AdmittedThenPermitted` | server/controllers/authentication.controller.ts:126-128 | after the middleware, `permit` passes iff the claims have a user id and an allowed role |
| `Controllers.Href` | server/controllers/organization.controller.ts:47 | an href is the API prefix and collection, a slash, then the id |
| `Controllers.HrefNamesTheDocument` | server/controllers/organization.controller.ts:47 | the id can be read back from an href |
| `Controllers.HrefInjective` | server/controllers/organization.controller.ts:47 | distinct documents get distinct hrefs |
| `Controllers.OrganizationHrefHook` | server/controllers/organization.controller.ts:46-49 | only the organization's href is set, to its own path; the earlier generation's create and update hooks (src/controllers/organization.controller.ts:20-28) set the same href |
| `Controllers.RoleHrefHook` | server/controllers/role.controller.ts:32-35 | only the role's href is set, to its own path; the earlier generation's create and update hooks (src/controllers/role.controller.ts:20-27) set the same href |
| `Controllers.PermissionHrefHook` | server/controllers/permission.controller.ts:27-30 | only the permission's href is set, to its own path; the earlier generation's create and update hooks (src/controllers/permission.controller.ts:17-24) set the same href |
| `Controllers.UserPreCreateHook` | server/controllers/user.controller.ts:83-87 | sets the user's href and replaces the password by its hash; a missing password makes the hash raise |
| `Controllers.LegacyUserPreCreateHook` | src/controllers/user.controller.ts:24-28 | the same with the earlier generation's constants |
| `Controllers.LegacyUserPreUpdateHook` | src/controllers/user.controller.ts:35-38 | only the user's href is set |
| `Controllers.PreSendResponseHook` | server/controllers/user.controller.ts:89-92 | only the password is blanked before sending |
| `Controllers.OwnershipOnlyForOrganizations` | server/controllers/organization.controller.ts:11-12 | only organizations require ownership, and for guests and supplier editors, not admins |
| `Controllers.AddOrganizationOwnerships` | server/controllers/organization.controller.ts:14-23 | the ownerships become exactly the current user as owner; without a stored token it raises |
| `Controllers.IsOrganizationOwner` | server/controllers/organization.controller.ts:26-33 | without a stored token it raises; otherwise the answer is the base controller's `isOwnerInOwnership` (a parameter) for the requesting user's id and the user ownership type |
| `Controllers.OwnerAnswerDependsOnlyOnUserId` | server/controllers/organization.controller.ts:26-33 | two requests whose claims carry the same user id get the same answer, and it is never an error |
| `Controllers.CreatorIsSoleOwner` | server/controllers/organization.controller.ts:14-33 | if `isOwnerInOwnership` tests for an entry naming the owner with that type, then after creation the creator is an owner and anyone else is one iff they have the same user id |
| `Controllers.IsRoleOwner` | server/controllers/role.controller.ts:16-18 | always raises "Roles don't require an ownership check" |
| `Controllers.IsPermissionOwner` | server/controllers/permission.controller.ts:17-19 | always raises "Permissions don't require an ownership check" |
| `UserController.UpgradeCheck` | server/controllers/user.controller.ts:29-56 | checked in this order, each answered 400: a role other than supplier editor (`NOT_UPGRADABLE_ROLE`), a taken organization name (`ORG_NAME_EXISTS` with its code), a user id that is not an id (`UPGRADE_FAILED` with the cast error), an unknown user (`NO_SUCH_USER`), a missing role (`NO_SUCH_ROLE`); otherwise the user and role to use |
| `UserController.SupplierOrganization` | server/controllers/user.controller.ts:60-65 | a non-system supplier organization with that name listing the user |
| `UserController.Upgraded` | server/controllers/user.controller.ts:69-70 | the role is appended and the organization set; nothing else changes |
| `UserController.UpgradeUser` | server/controllers/user.controller.ts:27-81 | a refused request changes nothing; an accepted one saves the organization under the next id, moves the user into it with the role, and answers 202 with its id |
| `UserController.UpgradeOnlyToSupplierEditor` | server/controllers/user.controller.ts:31-40 | an accepted upgrade is to the supplier-editor role, under a fresh organization name |
| `UserController.UpgradeLinksUserAndOrganization` | server/controllers/user.controller.ts:60-72 | the upgraded user keeps its roles, gains the new one, and points to the organization that lists it |
| `Registration.PasswordAcceptable` | src/controllers/registration.controller.ts:37 | a password passes iff it is present and has at least six characters; an empty one is refused like a missing one |
| `Registration.Send` | src/controllers/registration.controller.ts:35-38 | a response can be written once; a second write raises |
| `Registration.RegisteredUser` | src/controllers/registration.controller.ts:44-55 | the document `createFromBody` built, with the password hashed, the guest organization, the guest role appended to whatever roles the body supplied, and the email unverified; every other field unchanged |
| `Registration.GuestRoleId` | src/controllers/registration.controller.ts:42 | the id of a stored role named "guest", or none iff no role has that name |
| `Registration.GuestUserFor` | src/controllers/registration.controller.ts:41-57 | an undefined password after `createFromBody` raises first, then a missing guest organization, then a taken email fails the save; otherwise the user to save, with the `createFromBody` email, a password and the guest organization |
| `Registration.CreateGuestUser` | src/controllers/registration.controller.ts:41-72 | fails exactly as `GuestUserFor` does, storing nothing; otherwise the user and its verification record are saved under the next two ids and 201 is answered with the user, password blanked |
| `Registration.Register` | src/controllers/registration.controller.ts:31-76 | as written: a taken email is answered 400 and a raise then escapes the handler; otherwise 400 for a bad password, 401 with the raised error, or 201; whenever the password passes and `GuestUserFor` succeeds the user is stored, taken email or not |
| `Registration.RegisterFixed` | src/controllers/registration.controller.ts:31-76 | with the early return: every request is answered exactly once, nothing escapes, and a user is stored only for a free email, an acceptable password and a successful `GuestUserFor` |
| `Registration.TakenEmailEscapesRegister` | src/controllers/registration.controller.ts:34-36 | registering a taken email with a good password answers 400 and lets a raise escape, whatever `createFromBody` makes of the body |
| `Bootstrap.PermissionNamed` | src/server/config/database/database-bootstrap.ts:85-93 | a seeded permission's value is its name and its description "ability to" the name |
| `Bootstrap.SeededPermissions` | src/server/config/database/database-bootstrap.ts:83-95 | the nine permissions in the order they are created |
| `Bootstrap.CreateSinglePermission` | src/server/config/database/database-bootstrap.ts:97-105 | one permission with those fields is saved under the next id |
| `Bootstrap.SavePermissions` | src/server/config/database/database-bootstrap.ts:84-94 | the i-th permission is saved under the i-th next id, and the ids come back in order |
| `Bootstrap.CreateAllPermissions` | src/server/config/database/database-bootstrap.ts:83-95 | the nine permissions are stored under the next nine ids in table order, and those ids come back |
| `Bootstrap.CreateSingleRole` | src/server/config/database/database-bootstrap.ts:73-81 | one role granting those permissions is saved under the next id |
| `Bootstrap.SaveRoles` | src/server/config/database/database-bootstrap.ts:65-68 | the i-th role is saved under the i-th next id |
| `Bootstrap.SystemOrganization` | src/server/config/database/database-bootstrap.ts:28-32 | a system organization named "system" |
| `Bootstrap.GuestOrganization` | src/server/config/database/database-bootstrap.ts:56-60 | a non-system guest organization named "guest" with no users |
| `Bootstrap.SystemUser` | src/server/config/database/database-bootstrap.ts:37-46 | the system email and password hash, in the system organization, with the admin role only |
| `Bootstrap.AdminRole` | src/server/config/database/database-bootstrap.ts:42 | the admin role, granted the given permissions |
| `Bootstrap.LaterRoles` | src/server/config/database/database-bootstrap.ts:65-68 | four roles, guest first, each granted the given permissions |
| `Bootstrap.CreateSystemAccount` | src/server/config/database/database-bootstrap.ts:27-52 | saves the system organization and the admin role. With the system email taken, the user save fails and they stay; otherwise the user is saved and linked from its organization |
| `Bootstrap.CreateGuestOrganizationAndRoles` | src/server/config/database/database-bootstrap.ts:54-68 | the guest organization, then the four later roles, under the next five ids |
| `Bootstrap.SeedWith` | src/server/config/database/database-bootstrap.ts:19-71 | does nothing when an organization exists. Otherwise it saves the permissions, then the system account (stopping on a taken system email), then the guest organization and roles, with the exact resulting maps |
| `Bootstrap.SeededOrganizationsFound` | src/server/config/database/database-bootstrap.ts:28-62 | after seeding, the "system" and "guest" lookups find the seeded organizations, and names are unique |
| `Bootstrap.SeededSystemUserFound` | src/server/config/database/database-bootstrap.ts:37-48 | after seeding, the email lookup finds the system user, an admin of the system organization |
| `Bootstrap.SeededPermissionsStored` | src/server/config/database/database-bootstrap.ts:83-95 | each of the nine next ids holds the permission of that table position |
| `Bootstrap.SeededRolesStored` | src/server/config/database/database-bootstrap.ts:42-68 | the admin role and the four later roles are each granted all nine permissions |
| `Bootstrap.SeededGrantsStored` | src/server/config/database/database-bootstrap.ts:23-25 | every seeded role has every seeded permission |
| `Bootstrap.SeedingReachesSeededState` | src/server/config/database/database-bootstrap.ts:19-71 | the maps a successful seed leaves behind satisfy the seeded-state description |
| `Bootstrap.SeedingEmptyDatabaseCounts` | src/server/config/database/database-bootstrap.ts:19-71 | from an empty database, a successful seed leaves exactly two organizations, one user, five roles and nine permissions |
| `Bootstrap.SeedAs` | src/server/config/database/database-bootstrap.ts:19-71 | no change when an organization exists; otherwise success iff the system email is free, and then the seeded state holds; the exact collections before and after are those `SeedWith` promises (`SeedEffect`) |
| `Bootstrap.Seed` | src/server/config/database/database-bootstrap.ts:19-71 | the server generation's seed, with the system user's email verified; the exact collections as `SeedWith` with the flag set, verification records untouched |
| `Bootstrap.LegacySeed` | src/config/database/database-bootstrap.ts:19-70 | the earlier seed, with the system user's email left unverified; the exact collections as `SeedWith` with the flag unset, verification records untouched |
| `Server.PublicLayers` | server/server.ts:191-200 | four open routers, all mounted at or below `/api/v1`, the one at `/api/v1` itself (password reset) last |
| `Server.GuardedLayers` | server/server.ts:206-217 | the restricted user router, the restricted organization router, then six admin-only routers, all at `/api/v1` behind their role gates |
| `Server.GuardedLayersInOrder` | server/server.ts:205-217 | the guarded layers, one by one, as registered |
| `Server.RouteTable` | server/server.ts:187-218 | one token gate, with every layer before it open and every layer after it behind a role gate |
| `Server.WithToken` | server/controllers/authentication.controller.ts:126-127 | only the token slot of the request changes |
| `Server.Dispatch` | server/server.ts:187-218 | the walk ends at a router of the stack, or with a 401 or 403 from a gate, or falls through with the request's URL, method and body intact |
| `Server.DispatchAppend` | server/server.ts:187-218 | walking two stacks in turn is walking their concatenation |
| `Server.OpenLayersIgnoreToken` | server/server.ts:189-200 | the open routers never answer, never change the request, and never consult the verifier |
| `Server.GuardedRouted` | server/server.ts:206-217 | a request a guarded router takes passed every applicable role gate up to that router, unchanged |
| `Server.GuardedAnswered` | server/server.ts:206-217 | among the guarded routers, any answer is a role gate's 403 |
| `Server.NoLayerApplies` | server/server.ts:187-218 | a stack none of whose mounts applies lets the request through untouched |
| `Server.V1PathsAreApiPaths` | server/server.ts:203-206 | every path below `/api/v1` is behind the token middleware |
| `Server.PublicRoutesNeedNoToken` | server/server.ts:189-203 | a request an open router takes reaches it as it came, whatever the verifier says |
| `Server.PastThePublicRouters` | server/server.ts:200-203 | a request the open routers do not take continues at the token middleware, unchanged |
| `Server.TokenGateDecides` | server/server.ts:203 | below `/api/`, no token gives 403 and a refused token 401; a good one goes on carrying its claims |
| `Server.SharedMountGates` | server/server.ts:205-217 | routers sharing one mount: the i-th is reached only through the first i + 1 gates |
| `Server.GuardedRouterRoles` | server/server.ts:205-217 | a routed request holds a role of the restricted user list, and the admin-only routers need admin; a guest reaches only the restricted user router |
| `Server.GuardedRoutesNeedToken` | server/server.ts:202-217 | a request a guarded router takes carries a token the verifier accepted, with its claims stored |
| `Server.NotFoundError` | server/server.ts:237-239 | the catch-all's error has status 404 and names the requested page |
| `Server.Serve` | server/server.ts:222-239 | routed requests reach their router; gate answers are sent as given; other GETs of `/api` answer the API description, and all other GETs get the 404 error; any other method nothing took has no handler |
| `Server.ApiDescriptionIsOpen` | server/server.ts:224-235 | `GET /api` answers the API description with or without a token |
| `Server.Application.constructor` | server/server.ts:35-59 | the configured stack is the one `routes()` builds |
| `Server.Application.Use` | server/server.ts:191 | `use` appends one layer |
| `Server.Application.Routes` | server/server.ts:187-218 | `routes()` appends the open routers, the token middleware and the guarded routers, in that order |
| `Server.Application.OpenRoutes` | server/server.ts:189-200 | the open endpoints are appended first |
| `Server.Application.LockedRoutes` | server/server.ts:202-217 | then the token middleware and each guarded router |
| `Server.Includes` | server/server.ts:110 | `includes` is true iff the text occurs somewhere |
| `Server.SkipHealthCheckCases` | server/server.ts:107-111 | a successful health check is left out of the log; nothing that failed is |
| `Server.SkipHealthCheck` | server/server.ts:109-111 | a request is left out of the log iff it was answered 200 and its URL contains "healthcheck" |
| `Client.PasswordProblem` | client/src/app/password-reset/password-reset.component.ts:23-40 | no warning iff the fields agree and have at least six characters; the both-fields warning iff one is empty; the mismatch warning iff both are filled and differ; the too-short warning iff both are filled, equal and shorter than six characters |
| `Client.PasswordResetComponent.constructor` | client/src/app/password-reset/password-reset.component.ts:10-15 | flags down and fields empty |
| `Client.PasswordResetComponent.SaveNewPassword` | client/src/app/password-reset/password-reset.component.ts:22-41 | the first problem is shown as the warning (the mismatch warning for two filled, differing fields; the too-short one for equal fields under six characters); without one, nothing changes; the fields are never touched |
| `Client.HandleError` | client/src/services/base/base.service.ts:20-41 | a body error with message and detail is passed on; else status 0 reads "API call failed"; status and status text are kept; a thrown value passes its message or its text; a body that is not JSON raises a syntax error and a null body error a null dereference |
| `Client.StatusMessageNamesStatus` | client/src/services/base/base.service.ts:31-32 | without a body error, the message starts with the status's digits, which read back as the status |

## Left out

- The base controller and base repository are not part of this model. `FindById` and
  `SingleUser` stand for their `single` lookups. Generic create, update, delete and query
  handlers, ownership filtering and pagination are not modelled.
- Phone numbers and their unique index are not modelled. Neither are Mongoose's
  `createdAt` and `updatedAt` timestamps.
- Dates are integer seconds. moment's formatted text is not modelled.
- bcrypt, the JWT signer and verifier, and the clock are parameters. Their internal
  parameters (salt, secret) and cryptographic strength are not modelled.
- The earlier generation imports `{ Constants }` from src/constants.ts
  (src/controllers/authorization.ts:5, src/controllers/user.controller.ts:6), but that file
  exports only `CONST`. As written, `Constants` is `undefined`, so reading
  `Constants.REQUEST_TOKEN_LOCATION` (authorization.ts:16) and `Constants.API_ENDPOINT`
  (user.controller.ts:25 and :36) raises a TypeError on every call. `Authz.LegacyPermit`,
  `Controllers.LegacyUserPreCreateHook` and `Controllers.LegacyUserPreUpdateHook` instead
  read a token location, endpoint names and salt rounds that the model leaves abstract.
  These are values the program as written never has, so the three members show what the
  code would do if the import named an object, not the raise.
- `Authentication.Exchange.AuthMiddleware`: its try/catch is not modelled. The verifier
  parameter cannot throw, so the catch path is unreachable in the model.
- The role and permission controllers' `addOwnerships` do nothing. They are not modelled.
- The routers' own routes are the parameter `serves`. The routers are not part of this
  model.
- The following are not modelled: the static client and swagger serving, the `/healthcheck`
  and `/clientlogs` handlers, logging apart from `skipHealthCheck`, and the helmet, CORS,
  compression, body-parsing and method-override middleware.
- The seed's re-save of the system organization is not awaited in the source. The model
  performs it before the guest organization is saved.
- `Bootstrap.CreateAllPermissions`: the source writes out nine `createSinglePermission`
  calls. The model saves the same nine documents, in the same order and under the same ids,
  by one loop over the name table.
- `Bootstrap.CreateGuestOrganizationAndRoles`: likewise, the four `createSingleRole` calls
  are one loop over the role table, with the same order and documents.
- The earlier generation's `sendError` is declared in src/api-error-handler.ts, which is not
  part of this model, so its parameter order is unknown. Its calls pass the error code third
  and the response fourth. The model reads them as (message, status, error code, response).
  If that `sendError` takes the server generation's order (message, status, response, error
  code), the call for a taken email raises on its own: the request is answered 401 once, and
  the finding below does not arise.
- `Http.SendAuthFailure`: the server generation's authentication controller calls
  `ApiErrorHandler.sendAuthFailure` (server/controllers/authentication.controller.ts lines
  35, 62, 79, 84, 113, 124, 133 and 136), and server/api-error-handler.ts does not define
  it. As written, each of those calls raises a TypeError instead of answering. The model
  answers them in the shape of the earlier registration controller's own `sendAuthFailure`
  (src/controllers/registration.controller.ts:78-83), so `Authentication.Exchange`,
  `Authentication.Renew`, `Authentication.VerifyToken` and the token gate show the intended
  401 and 403 answers, not the raise.
- `Registration.RegisteredUser`: when no role is named "guest", the source pushes a null
  reference onto the user's roles. The model appends nothing, because role references
  here are ids. The user repository and its `createFromBody` are not part of this model;
  `createFromBody` is the parameter `fromBody`.
- `Server.Serve`: mount paths and the `/api` route are compared exactly as written. Express
  matches them case-insensitively, and `GET /api/` reaches the `/api` handler because
  trailing slashes are not strict. So `GET /api/` and `GET /API` get the API description
  there and the 404 error here. A path such as `/API/V1/users` meets the token middleware
  and the routers there, and only the final handlers here. `Server.MountMatches` and
  `Server.Dispatch` share this limit.
- GUEST_ROLE, SUPPLIER_EDITOR_ROLE, PRODUCT_EDITOR_ROLE and errorCodes are not defined in
  server/constants.ts. The model gives the role names the values "guest", "supplier:editor"
  and "product:editor", and declares `ORG_NAME_TAKEN` without a value. As written, all of them are
  `undefined`. Then the organization controller's `rolesRequiringOwnership`
  (server/controllers/organization.controller.ts:12) is `[undefined, undefined]`, and
  `Controllers.OwnershipOnlyForOrganizations` holds only for the values the model gives.
  The restricted user router's gate (server/server.ts:206) admits no
  guest. The upgrade check (server/controllers/user.controller.ts:33) refuses every role
  name that is given. And reading `CONST.errorCodes.ORG_NAME_TAKEN` (line 40) raises.
- `Repositories.SingleUser`: the user repository and the base repository that defines
  `single` are not part of this model. The model assumes `single` returns the user without
  its password, with its role ids resolved to roles and their permission ids to permissions.
  `Authentication.Renew` and `Authentication.IssuedTokenRenews` rely on that population,
  because renewal reads each role's name (server/controllers/authentication.controller.ts:90).
  `UserController.UpgradeCheck` only asks whether the user exists.
- `Repositories.GetRoleByName`: the role repository is not part of this model. Its
  `getRoleByName` (server/controllers/user.controller.ts:52) is assumed to be
  `findOne({name})`, giving the earliest role with that name. The role and permission
  schemas are not part of this model either. `Store.Store.InsertRole` and
  `Store.Store.InsertPermission` always succeed, which assumes those schemas put no
  unique index on the name.
- `Client.HandleError`: the error `json()` raises on a body that is not JSON is
  `JsonSyntaxError`. Its message text is not modelled.
- Concurrency and the interleaving of awaited database calls are not modelled. Each
  handler runs to completion.
- The client's `ServiceError` class and `Observable.throw` are not modelled. `handleError`
  returns the error value.
- Request bodies are modelled with the fields the handlers read present, as strings:
  `Registration.RegistrationBody` and the login credentials of `Authentication.Authenticate`
  always carry an `email`. A body without `email`, which reaches `findOne({email: undefined})`
  (src/controllers/registration.controller.ts:34, server/controllers/authentication.controller.ts:32),
  is not modelled. Neither are JSON values that are not strings, such as a numeric
  `password`, whose `.length` is `undefined` and so passes the six-character check at
  src/controllers/registration.controller.ts:37.
- String lengths are counted in characters of the model's strings. UTF-16 code units are
  not modelled.

## Findings

| source | as written | input that shows it | evidently intended | confidence | as-written member | corrected member |
|---|---|---|---|---|---|---|
| src/controllers/registration.controller.ts:34-36 | after answering 400 for a taken email, `register` does not return: it checks the password and may save the user. This holds if the earlier `sendError` takes (message, status, error code, response), as its calls are written; see "## Left out" | registering an email already held by a stored user, with a password of six or more characters | return after the 400, so each request is answered once | not executed | `Registration.TakenEmailEscapesRegister` | `Registration.RegisterFixed` |

=== FILE: api_error_handler.dfy ===
/**
 * The two error responders (server/api-error-handler.ts): `sendError` for expected
 * errors and `HandleApiError`, the last handler in the pipeline, for everything thrown.
 */
module ApiErrorHandler {
  import opened Wrappers
  import opened Http

  /** `sendError`: exactly the given status, and a body that repeats it. */
  function SendError(message: string, status: int, errorCode: Option<string>, exception: Option<Fault>): (r: Response)
    ensures r.status == status
    ensures r.body.ApiError? && r.body.status == r.status
    ensures r.body.message == message && r.body.errorCode == errorCode && r.body.exception == exception
  {
    Response(status, ApiError(message, status, errorCode, exception))
  }

  /** An error reaching the handler: its name, message, HTTP status and call stack. */
  datatype ErrorValue = ErrorValue(name: string, message: Option<string>, status: Option<int>, stack: string)

  /** `error.status || 500`: a missing or zero status falls back to 500. */
  function StatusOrDefault(status: Option<int>): (s: int)
    ensures status.Some? && status.value != 0 ==> s == status.value
    ensures status.None? || status.value == 0 ==> s == 500
  {
    if status.Some? && status.value != 0 then status.value else 500
  }

  /** `error.message || 'Server Error'`. */
  function MessageOrDefault(message: Option<string>): (m: string)
    ensures Truthy(message) ==> m == message.value
    ensures !Truthy(message) ==> m == "Server Error"
  {
    if Truthy(message) then message.value else "Server Error"
  }

  /**
   * `HandleApiError`: the status code is the error's status or 500, overridden by 401 for
   * a `JWTExpressError`; the body repeats the error's status or 500 in any case, echoes the
   * URL, method and request body, and carries the stack only when configured to.
   */
  function HandleApiError(error: ErrorValue, request: Request, returnCallStackOnError: bool): (r: Response)
    ensures error.name == "JWTExpressError" ==> r.status == 401
    ensures error.name != "JWTExpressError" ==> r.status == StatusOrDefault(error.status)
    ensures r.body.HandledError?
    ensures r.body.status == StatusOrDefault(error.status)
    ensures r.body.message == MessageOrDefault(error.message)
    ensures r.body.url == request.url && r.body.verb == request.verb && r.body.requestBody == request.body
    ensures r.body.stack == if returnCallStackOnError then error.stack else ""
  {
    var statusCode := StatusOrDefault(error.status);
    var httpStatus := if error.name == "JWTExpressError" then 401 else statusCode;
    Response(httpStatus, HandledError(
      MessageOrDefault(error.message),
      statusCode,
      request.url,
      request.verb,
      if returnCallStackOnError then error.stack else "",
      request.body))
  }

  /**
   * The HTTP status and the body's `status` agree except for a `JWTExpressError`, where
   * they can differ: one without a status is sent as 401 with a body saying 500.
   */
  lemma StatusAndBodyStatus(error: ErrorValue, request: Request, returnCallStackOnError: bool)
    ensures var r := HandleApiError(error, request, returnCallStackOnError);
            r.status != r.body.status ==> error.name == "JWTExpressError"
    ensures var r := HandleApiError(ErrorValue("JWTExpressError", None, None, ""), request, returnCallStackOnError);
            r.status == 401 && r.body.status == 500
  {
  }

  /**
   * The error object for a fault passed to `next(error)`. It carries no status. An
   * explicitly thrown error keeps its own message; for the others, the runtime's or
   * Mongoose's message text is the parameter `text`.
   */
  function FaultError(fault: Fault, text: string): (e: ErrorValue)
    ensures e.status == None && e.name != "JWTExpressError"
    ensures e.message == Some(if fault.Raised? then fault.message else text)
    ensures e.name == (if fault.Raised? then "Error" else if fault.CastError? then "CastError"
                       else if fault.JsonSyntaxError? then "SyntaxError" else "TypeError")
  {
    match fault
    case Raised(message) => ErrorValue("Error", Some(message), None, "")
    case CastError => ErrorValue("CastError", Some(text), None, "")
    case JsonSyntaxError => ErrorValue("SyntaxError", Some(text), None, "")
    case _ => ErrorValue("TypeError", Some(text), None, "")
  }
}

=== FILE: authentication.dfy ===
/**
 * Token issue, renewal and checking (server/controllers/authentication.controller.ts).
 * The password hash comparison, the token signer and verifier and the clock are
 * parameters: `compare(plain, hash)` is bcrypt's check, `sign(payload, lifetime)` returns
 * a token that the signer will refuse after `lifetime` seconds, `verify(token)` returns
 * the payload or the verifier's error text, and `now` is the current time in seconds.
 */
module Authentication {
  import opened Wrappers
  import opened Identifiers
  import opened Models
  import opened Http
  import opened Store
  import opened Repositories
  import Constants
  import Authz
  import ApiErrorHandler

  /** The credentials in the request body; a field the client left out is `None`. */
  datatype Credentials = Credentials(email: string, password: Option<string>)

  /**
   * The claims for a user: its id and organization id as text, the names of its populated
   * roles, and the soft deadline one day after `now`.
   */
  function PayloadFor(id: Id, user: User, roles: seq<PopulatedRole>, now: int): (p: TokenPayload)
    ensures p.userId == IdText(id) && p.expiresAt == now + Constants.SOFT_EXPIRY_SECONDS
    ensures p.organizationId == (if user.organizationId.Some? then Some(IdText(user.organizationId.value)) else None)
    ensures |p.roles| == |roles| && forall i :: 0 <= i < |roles| ==> p.roles[i] == roles[i].role.name
  {
    TokenPayload(
      IdText(id),
      if user.organizationId.Some? then Some(IdText(user.organizationId.value)) else None,
      seq(|roles|, i requires 0 <= i < |roles| => roles[i].role.name),
      now + Constants.SOFT_EXPIRY_SECONDS)
  }

  /** The response carrying a newly issued token and its claims. */
  function IssueToken(message: string, payload: TokenPayload, sign: (TokenPayload, int) -> string): (r: Response)
    ensures r.status == 200
    ensures r.body == TokenIssued(true, message, payload.expiresAt, sign(payload, Constants.HARD_EXPIRY_SECONDS), payload)
  {
    Response(200, TokenIssued(true, message, payload.expiresAt, sign(payload, Constants.HARD_EXPIRY_SECONDS), payload))
  }

  const PASSWORD_MISMATCH := "Password does not match"

  /**
   * `authenticate`: the user is looked up by email with its password and roles. An
   * unknown email (a property read on nothing) and a missing password (the hash check
   * refuses an undefined argument) are both caught and answered 401 with the error; a
   * wrong password is answered 401 "Password does not match"; a right one gets a token
   * with a one-day soft deadline, signed for 25 hours.
   */
  function Authenticate(users: map<Id, User>, roles: map<Id, Role>, permissions: map<Id, Permission>,
                        creds: Credentials, compare: (string, string) -> bool,
                        sign: (TokenPayload, int) -> string, now: int): (r: Response)
    ensures !EmailTaken(users, creds.email) ==> r == SendAuthFailure(401, Thrown(NullDereference))
    ensures r.status == 200 <==>
              var found := GetUserForPasswordCheck(users, roles, permissions, creds.email);
              found.Some? && creds.password.Some? && found.value.user.password.Some? &&
              compare(creds.password.value, found.value.user.password.value)
    ensures r.status != 200 ==> r.status == 401 && r.body.AuthFailure?
    ensures var found := GetUserForPasswordCheck(users, roles, permissions, creds.email);
            found.Some? && (creds.password.None? || found.value.user.password.None?) ==>
              r == SendAuthFailure(401, Thrown(MissingHashInput))
    ensures var found := GetUserForPasswordCheck(users, roles, permissions, creds.email);
            found.Some? && creds.password.Some? && found.value.user.password.Some? &&
            !compare(creds.password.value, found.value.user.password.value) ==>
              r == SendAuthFailure(401, Text(PASSWORD_MISMATCH))
    ensures r.status == 200 ==>
              var found := GetUserForPasswordCheck(users, roles, permissions, creds.email).value;
              users[found.id].email == creds.email &&
              r == IssueToken("Successfully created jwt authentication token.",
                              PayloadFor(found.id, found.user, found.roles, now), sign)
  {
    match GetUserForPasswordCheck(users, roles, permissions, creds.email)
    case None => SendAuthFailure(401, Thrown(NullDereference))
    case Some(found) =>
      if creds.password.None? || found.user.password.None? then
        SendAuthFailure(401, Thrown(MissingHashInput))
      else if !compare(creds.password.value, found.user.password.value) then
        SendAuthFailure(401, Text(PASSWORD_MISMATCH))
      else
        IssueToken("Successfully created jwt authentication token.",
                   PayloadFor(found.id, found.user, found.roles, now), sign)
  }

  /** The token outlives its soft deadline by an hour, so a client can still renew it. */
  lemma HardExpiryAfterSoftExpiry()
    ensures Constants.HARD_EXPIRY_SECONDS - Constants.SOFT_EXPIRY_SECONDS == 60 * 60
  {
  }

  /**
   * With unique emails, a successful authentication issues a token for the one user that
   * holds the email, and its claims name that user's id.
   */
  lemma {:induction false} AuthenticateNamesTheUser(users: map<Id, User>, roles: map<Id, Role>,
                                                    permissions: map<Id, Permission>, creds: Credentials,
                                                    compare: (string, string) -> bool,
                                                    sign: (TokenPayload, int) -> string, now: int, k: Id)
    requires UniqueEmails(users) && k in users && users[k].email == creds.email
    requires Authenticate(users, roles, permissions, creds, compare, sign, now).status == 200
    ensures Authenticate(users, roles, permissions, creds, compare, sign, now).body.decoded.userId == IdText(k)
    ensures ParseId(Authenticate(users, roles, permissions, creds, compare, sign, now).body.decoded.userId) == Some(k)
  {
    FindUserByEmailUnique(users, creds.email, k);
    ParseIdText(k);
  }

  /** What a handler did with a request: answered it, or passed an error on (`next(error)`). */
  datatype Handled = Sent(response: Response) | Forwarded(fault: Fault)

  const NO_TOKEN := "No Authentication Token Provided"
  const TOKEN_REFUSED := "Failed to authenticate token. The timer *may* have expired on this token."
  const MUST_LOGIN_AGAIN := "The user must login again to refresh their credentials"

  /**
   * The second half of `refreshToken`, once the token's claims are verified: the user
   * named by the claims is loaded by id, and a failed load (an id that is not one, or no
   * such user) is passed on as an error; a user whose `isTokenExpired` flag is set is
   * answered 401; anyone else gets a fresh token built from the stored user, not from
   * the old claims.
   */
  function Renew(users: map<Id, User>, roles: map<Id, Role>, permissions: map<Id, Permission>,
                 userId: string, sign: (TokenPayload, int) -> string, now: int): (h: Handled)
    ensures h.Forwarded? <==> ParseId(userId).None? || ParseId(userId).value !in users
    ensures h.Forwarded? ==> h.fault == (if ParseId(userId).None? then CastError else NullDereference)
    ensures h.Sent? && h.response.status == 200 <==>
              ParseId(userId).Some? && ParseId(userId).value in users && !users[ParseId(userId).value].isTokenExpired
    ensures ParseId(userId).Some? && ParseId(userId).value in users && users[ParseId(userId).value].isTokenExpired ==>
              h == Sent(SendAuthFailure(401, Text(MUST_LOGIN_AGAIN)))
    ensures h.Sent? && h.response.status == 200 ==>
              var k := ParseId(userId).value;
              h.response == IssueToken("Successfully refreshed jwt authentication token.",
                                       PayloadFor(k, users[k], PopulateRoles(roles, permissions, users[k].roles), now), sign)
  {
    match SingleUser(users, roles, permissions, userId)
    case Err(fault) => Forwarded(fault)
    case Ok(None) => Forwarded(NullDereference)
    case Ok(Some(loaded)) =>
      if loaded.user.isTokenExpired then
        Sent(SendAuthFailure(401, Text(MUST_LOGIN_AGAIN)))
      else
        Sent(IssueToken("Successfully refreshed jwt authentication token.",
                        PayloadFor(loaded.id, loaded.user, loaded.roles, now), sign))
  }

  /**
   * `refreshToken`: no token is answered 403; a token the verifier refuses, 401; a
   * verified token is renewed for the user its claims name, and for nothing else in
   * the old claims.
   */
  function RefreshToken(users: map<Id, User>, roles: map<Id, Role>, permissions: map<Id, Permission>,
                        req: Request, verify: string -> Result<TokenPayload, string>,
                        sign: (TokenPayload, int) -> string, now: int): (h: Handled)
    ensures TokenFromRequest(req).None? ==> h == Sent(SendAuthFailure(403, Text(NO_TOKEN)))
    ensures TokenFromRequest(req).Some? && verify(TokenFromRequest(req).value).Err? ==>
              h == Sent(SendAuthFailure(401, Text(TOKEN_REFUSED)))
    ensures TokenFromRequest(req).Some? && verify(TokenFromRequest(req).value).Ok? ==>
              h == Renew(users, roles, permissions, verify(TokenFromRequest(req).value).value.userId, sign, now)
  {
    match TokenFromRequest(req)
    case None => Sent(SendAuthFailure(403, Text(NO_TOKEN)))
    case Some(token) =>
      match verify(token)
      case Err(_) => Sent(SendAuthFailure(401, Text(TOKEN_REFUSED)))
      case Ok(decoded) => Renew(users, roles, permissions, decoded.userId, sign, now)
  }

  /**
   * Renewal revokes stale claims: two tokens naming the same user are renewed to the
   * same response, whatever roles or organization the old claims listed.
   */
  lemma RefreshDependsOnlyOnUserId(users: map<Id, User>, roles: map<Id, Role>, permissions: map<Id, Permission>,
                                   a: Request, b: Request, verify: string -> Result<TokenPayload, string>,
                                   sign: (TokenPayload, int) -> string, now: int)
    requires TokenFromRequest(a).Some? && TokenFromRequest(b).Some?
    requires verify(TokenFromRequest(a).value).Ok? && verify(TokenFromRequest(b).value).Ok?
    requires verify(TokenFromRequest(a).value).value.userId == verify(TokenFromRequest(b).value).value.userId
    ensures RefreshToken(users, roles, permissions, a, verify, sign, now) ==
            RefreshToken(users, roles, permissions, b, verify, sign, now)
  {
  }

  /**
   * A token issued at login renews, as long as the user is still stored and its
   * `isTokenExpired` flag is clear, into a token for the same user.
   */
  lemma {:induction false} IssuedTokenRenews(users: map<Id, User>, roles: map<Id, Role>,
                                             permissions: map<Id, Permission>, req: Request,
                                             verify: string -> Result<TokenPayload, string>,
                                             sign: (TokenPayload, int) -> string, now: int, k: Id)
    requires k in users && !users[k].isTokenExpired
    requires TokenFromRequest(req).Some? && verify(TokenFromRequest(req).value).Ok?
    requires verify(TokenFromRequest(req).value).value.userId == IdText(k)
    ensures var h := RefreshToken(users, roles, permissions, req, verify, sign, now);
            h.Sent? && h.response.status == 200 && h.response.body.decoded.userId == IdText(k)
  {
    ParseIdText(k);
  }

  /**
   * A user whose `isTokenExpired` flag is set cannot renew, even with a token the
   * verifier accepts: the answer is 401 "must login again", and no token is issued.
   */
  lemma {:induction false} FlaggedUserCannotRenew(users: map<Id, User>, roles: map<Id, Role>,
                                                  permissions: map<Id, Permission>, req: Request,
                                                  verify: string -> Result<TokenPayload, string>,
                                                  sign: (TokenPayload, int) -> string, now: int, k: Id)
    requires k in users && users[k].isTokenExpired
    requires TokenFromRequest(req).Some? && verify(TokenFromRequest(req).value).Ok?
    requires verify(TokenFromRequest(req).value).value.userId == IdText(k)
    ensures RefreshToken(users, roles, permissions, req, verify, sign, now) ==
            Sent(SendAuthFailure(401, Text(MUST_LOGIN_AGAIN)))
  {
    ParseIdText(k);
  }

  /**
   * A renewal whose user cannot be loaded is passed to `next(error)`, and so reaches the
   * last error handler, which answers 500 with the error's message or "Server Error".
   * This happens exactly when the verified claims name no stored user.
   */
  lemma ForwardedRenewalIsServerError(users: map<Id, User>, roles: map<Id, Role>, permissions: map<Id, Permission>,
                                      req: Request, verify: string -> Result<TokenPayload, string>,
                                      sign: (TokenPayload, int) -> string, now: int,
                                      text: string, returnCallStackOnError: bool)
    ensures var h := RefreshToken(users, roles, permissions, req, verify, sign, now);
            h.Forwarded? <==>
              TokenFromRequest(req).Some? && verify(TokenFromRequest(req).value).Ok? &&
              var id := ParseId(verify(TokenFromRequest(req).value).value.userId);
              id.None? || id.value !in users
    ensures var h := RefreshToken(users, roles, permissions, req, verify, sign, now);
            h.Forwarded? ==>
              var r := ApiErrorHandler.HandleApiError(ApiErrorHandler.FaultError(h.fault, text), req, returnCallStackOnError);
              r.status == 500 && r.body.status == 500 && r.body.message == (if text == "" then "Server Error" else text)
  {
  }

  /** What the token middleware decides for a request. */
  datatype AuthStep = Admit(payload: TokenPayload) | Reject(response: Response)

  /**
   * The decision of `authMiddleware`: no token is answered 403; a token the verifier
   * refuses, 401 with the verifier's error; a good token is admitted with its claims.
   */
  function AuthDecision(req: Request, verify: string -> Result<TokenPayload, string>): (s: AuthStep)
    ensures s.Admit? <==> TokenFromRequest(req).Some? && verify(TokenFromRequest(req).value).Ok?
    ensures s.Admit? ==> s.payload == verify(TokenFromRequest(req).value).value
    ensures TokenFromRequest(req).None? ==> s == Reject(SendAuthFailure(403, Text(NO_TOKEN)))
    ensures s.Reject? && TokenFromRequest(req).Some? ==>
              s == Reject(SendAuthFailure(401, Text(TOKEN_REFUSED + " err: " + verify(TokenFromRequest(req).value).error)))
  {
    match TokenFromRequest(req)
    case None => Reject(SendAuthFailure(403, Text(NO_TOKEN)))
    case Some(token) =>
      match verify(token)
      case Err(err) => Reject(SendAuthFailure(401, Text(TOKEN_REFUSED + " err: " + err)))
      case Ok(payload) => Admit(payload)
  }

  /** One request travelling through the middleware chain. */
  class Exchange {
    var request: Request
    /** The responses written so far. */
    var sent: seq<Response>
    /** How many times the next handler was called. */
    var nextCalls: nat

    constructor (req: Request)
      ensures request == req && sent == [] && nextCalls == 0
    {
      request, sent, nextCalls := req, [], 0;
    }

    /**
     * `authMiddleware`: a good token's claims are stored on the request and the next
     * handler is called; otherwise one failure response is written and the chain stops.
     */
    method AuthMiddleware(verify: string -> Result<TokenPayload, string>)
      modifies this
      ensures AuthDecision(old(request), verify).Admit? ==>
                && request == old(request).(decoded := old(request).decoded[
                     Constants.REQUEST_TOKEN_LOCATION := AuthDecision(old(request), verify).payload])
                && nextCalls == old(nextCalls) + 1 && sent == old(sent)
      ensures AuthDecision(old(request), verify).Reject? ==>
                && request == old(request) && nextCalls == old(nextCalls)
                && sent == old(sent) + [AuthDecision(old(request), verify).response]
    {
      var step := AuthDecision(request, verify);
      match step {
        case Admit(payload) =>
          request := request.(decoded := request.decoded[Constants.REQUEST_TOKEN_LOCATION := payload]);
          nextCalls := nextCalls + 1;
        case Reject(response) =>
          sent := sent + [response];
      }
    }
  }

  /**
   * The middleware and the role guard fit together: a request admitted by the middleware
   * passes `permit` exactly when its claims carry a user id and an allowed role.
   */
  lemma AdmittedThenPermitted(req: Request, verify: string -> Result<TokenPayload, string>, authRoles: seq<string>)
    requires AuthDecision(req, verify).Admit?
    ensures var p := AuthDecision(req, verify).payload;
            var stored := req.(decoded := req.decoded[Constants.REQUEST_TOKEN_LOCATION := p]);
            Authz.Permit(authRoles, stored) == Next <==>
              p.userId != "" && exists i :: 0 <= i < |p.roles| && p.roles[i] in authRoles
  {
  }
}

=== FILE: authorization.dfy ===
/**
 * Role-based authorization (src/server/controllers/authorization.ts, and its twin
 * src/controllers/authorization.ts): a route guard built from a list of allowed role
 * names, checked against the role names carried by the decoded token.
 */
module Authz {
  import opened Http
  import Constants

  /** `userRoles.some(r => authRoles.indexOf(r) >= 0)`: the two lists share a name. */
  function CheckIfRoleExists(userRoles: seq<string>, authRoles: seq<string>): (b: bool)
    ensures b <==> exists i :: 0 <= i < |userRoles| && userRoles[i] in authRoles
  {
    if userRoles == [] then false
    else if userRoles[0] in authRoles then true
    else
      var rest := CheckIfRoleExists(userRoles[1..], authRoles);
      assert forall i :: 1 <= i < |userRoles| ==> userRoles[i] == userRoles[1..][i - 1];
      rest
  }

  /** Sharing a name is symmetric: which list is the user's does not matter. */
  lemma {:induction false} CheckIfRoleExistsSymmetric(a: seq<string>, b: seq<string>)
    ensures CheckIfRoleExists(a, b) == CheckIfRoleExists(b, a)
  {
    if CheckIfRoleExists(a, b) {
      var i :| 0 <= i < |a| && a[i] in b;
      var j :| 0 <= j < |b| && b[j] == a[i];
      assert b[j] in a;
    }
    if CheckIfRoleExists(b, a) {
      var j :| 0 <= j < |b| && b[j] in a;
      var i :| 0 <= i < |a| && a[i] == b[j];
      assert a[i] in b;
    }
  }

  /** A user with no roles, or a guard with no allowed roles, never matches. */
  lemma CheckIfRoleExistsEmpty(roles: seq<string>)
    ensures !CheckIfRoleExists([], roles)
    ensures !CheckIfRoleExists(roles, [])
  {
  }

  /** Allowing more roles never refuses a user who was let through before. */
  lemma {:induction false} CheckIfRoleExistsMonotone(userRoles: seq<string>, authRoles: seq<string>, more: seq<string>)
    requires forall r :: r in authRoles ==> r in more
    requires CheckIfRoleExists(userRoles, authRoles)
    ensures CheckIfRoleExists(userRoles, more)
  {
    var i :| 0 <= i < |userRoles| && userRoles[i] in authRoles;
    assert userRoles[i] in more;
  }

  const NOT_IN_ROLE := "You are not in the correct role for this resource"

  /**
   * `permit(...authRoles)` reading the decoded token from `location`: the request passes
   * on when a token is there, its `userId` is non-empty and one of its roles is allowed;
   * otherwise it is answered 403.
   */
  function PermitAt(location: string, authRoles: seq<string>, req: Request): (o: Outcome)
    ensures o == Next <==>
              && location in req.decoded
              && req.decoded[location].userId != ""
              && exists i :: 0 <= i < |req.decoded[location].roles| && req.decoded[location].roles[i] in authRoles
    ensures o != Next ==> o == Respond(SendAuthFailure(403, Text(NOT_IN_ROLE)))
  {
    if location in req.decoded && req.decoded[location].userId != ""
       && CheckIfRoleExists(req.decoded[location].roles, authRoles)
    then Next
    else Respond(SendAuthFailure(403, Text(NOT_IN_ROLE)))
  }

  /** The guard of the server generation, reading the slot the token middleware writes. */
  function Permit(authRoles: seq<string>, req: Request): (o: Outcome)
    ensures o == Next <==>
              && Constants.REQUEST_TOKEN_LOCATION in req.decoded
              && req.decoded[Constants.REQUEST_TOKEN_LOCATION].userId != ""
              && CheckIfRoleExists(req.decoded[Constants.REQUEST_TOKEN_LOCATION].roles, authRoles)
    ensures o == Next || o.response.status == 403
  {
    PermitAt(Constants.REQUEST_TOKEN_LOCATION, authRoles, req)
  }

  /** The guard of the earlier generation, reading the slot named by `Constants`. */
  function LegacyPermit(allowed: seq<string>, req: Request): (o: Outcome)
    ensures o == Next <==>
              && Constants.LEGACY_REQUEST_TOKEN_LOCATION in req.decoded
              && req.decoded[Constants.LEGACY_REQUEST_TOKEN_LOCATION].userId != ""
              && CheckIfRoleExists(req.decoded[Constants.LEGACY_REQUEST_TOKEN_LOCATION].roles, allowed)
    ensures o == Next || o.response.status == 403
  {
    PermitAt(Constants.LEGACY_REQUEST_TOKEN_LOCATION, allowed, req)
  }

  /** A guard's decision depends on the token in its slot and on nothing else in the request. */
  lemma PermitReadsOnlyTheToken(location: string, authRoles: seq<string>, a: Request, b: Request)
    requires location in a.decoded <==> location in b.decoded
    requires location in a.decoded ==> a.decoded[location] == b.decoded[location]
    ensures PermitAt(location, authRoles, a) == PermitAt(location, authRoles, b)
  {
  }

  /** Widening a guard's role list never turns away a request it let through. */
  lemma PermitMonotone(location: string, authRoles: seq<string>, more: seq<string>, req: Request)
    requires forall r :: r in authRoles ==> r in more
    requires PermitAt(location, authRoles, req) == Next
    ensures PermitAt(location, more, req) == Next
  {
    CheckIfRoleExistsMonotone(req.decoded[location].roles, authRoles, more);
  }
}

=== FILE: bootstrap.dfy ===
/**
 * Seeding an empty database (src/server/config/database/database-bootstrap.ts and the
 * earlier src/config/database/database-bootstrap.ts): nine permissions, the system
 * organization, the administrator role and the system user, the guest organization and
 * four more roles, all granted every permission. Nothing happens when any organization
 * already exists.
 */
module Bootstrap {
  import opened Wrappers
  import opened Identifiers
  import opened Enumerations
  import opened Models
  import opened Http
  import opened Store
  import opened Repositories
  import Constants

  /** The permission names, in the order they are created. */
  const PERMISSION_NAMES: seq<string> :=
    ["query", "delete", "blank", "utility", "count", "clear", "single", "create", "update"]

  /** A seeded permission: its value is its name, its description "ability to <name>". */
  function PermissionNamed(name: string): (p: Permission)
    ensures p.name == name && p.value == name && p.description == "ability to " + name && p.href == None
  {
    Permission(name, name, "ability to " + name, None)
  }

  /** The documents saved one by one from `base` on: the i-th of them gets id `base + i`. */
  function Stored<T>(base: Id, docs: seq<T>): map<Id, T>
    decreases |docs|
  {
    if docs == [] then map[]
    else Stored(base, docs[..|docs| - 1])[base + |docs| - 1 := docs[|docs| - 1]]
  }

  /** The documents saved from `base` on occupy exactly the next ids, in order. */
  lemma {:induction false} StoredContents<T>(base: Id, docs: seq<T>)
    ensures forall k :: k in Stored(base, docs) <==> base <= k < base + |docs|
    ensures forall i :: 0 <= i < |docs| ==> Stored(base, docs)[base + i] == docs[i]
    decreases |docs|
  {
    if docs != [] {
      var n := |docs| - 1;
      StoredContents(base, docs[..n]);
      forall i | 0 <= i < n
        ensures base + i in Stored(base, docs) && Stored(base, docs)[base + i] == docs[i]
      {
        assert docs[..n][i] == docs[i];
      }
    }
  }

  /** Saving one more document extends the stored map by that document. */
  lemma StoredStep<T>(base: Id, docs: seq<T>, i: nat)
    requires i < |docs|
    ensures Stored(base, docs[..i + 1]) == Stored(base, docs[..i])[base + i := docs[i]]
  {
    assert docs[..i + 1][..i] == docs[..i];
  }

  /** Before anything is saved, nothing was added. */
  lemma StoredNothing<T>(before: map<Id, T>, base: Id, docs: seq<T>)
    ensures before + Stored(base, docs[..0]) == before
  {
    assert docs[..0] == [];
  }

  /** Documents saved from `base` on occupy one id each. */
  lemma {:induction false} StoredCount<T>(base: Id, docs: seq<T>)
    ensures |Stored(base, docs)| == |docs|
    decreases |docs|
  {
    if docs != [] {
      var n := |docs| - 1;
      StoredCount(base, docs[..n]);
      StoredContents(base, docs[..n]);
      assert base + n !in Stored(base, docs[..n]);
    }
  }

  /** Saving the i-th document on top of the first i extends what was stored before. */
  lemma SaveStep<T>(before: map<Id, T>, base: Id, docs: seq<T>, i: nat)
    requires i < |docs|
    ensures (before + Stored(base, docs[..i]))[base + i := docs[i]] == before + Stored(base, docs[..i + 1])
  {
    StoredStep(base, docs, i);
  }

  /** The nine permissions `createAllPermissions` saves, in order. */
  function SeededPermissions(): (ps: seq<Permission>)
    ensures |ps| == |PERMISSION_NAMES|
    ensures forall i :: 0 <= i < |ps| ==> ps[i] == PermissionNamed(PERMISSION_NAMES[i])
  {
    seq(|PERMISSION_NAMES|, i requires 0 <= i < |PERMISSION_NAMES| => PermissionNamed(PERMISSION_NAMES[i]))
  }

  /** `createSinglePermission(name, value, description)`: saves one permission. */
  method CreateSinglePermission(store: Store, name: string, value: string, description: string) returns (id: Id)
    requires store.Valid()
    modifies store
    ensures store.Valid()
    ensures id == old(store.nextId) && store.nextId == id + 1
    ensures store.permissions == old(store.permissions)[id := Permission(name, value, description, None)]
    ensures store.users == old(store.users) && store.organizations == old(store.organizations)
    ensures store.roles == old(store.roles) && store.verifications == old(store.verifications)
  {
    id := store.InsertPermission(Permission(name, value, description, None));
  }

  /**
   * Saving permissions one after the other, collecting their ids in order: the i-th
   * permission gets the i-th id handed out.
   */
  method SavePermissions(store: Store, docs: seq<Permission>) returns (ids: seq<Id>)
    requires store.Valid()
    requires forall j :: 0 <= j < |docs| ==> docs[j].href == None
    modifies store
    ensures store.Valid()
    ensures |ids| == |docs| && forall j :: 0 <= j < |ids| ==> ids[j] == old(store.nextId) + j
    ensures store.nextId == old(store.nextId) + |docs|
    ensures store.permissions == old(store.permissions) + Stored(old(store.nextId), docs)
    ensures store.users == old(store.users) && store.organizations == old(store.organizations)
    ensures store.roles == old(store.roles) && store.verifications == old(store.verifications)
  {
    var base := store.nextId;
    ids := [];
    var i := 0;
    StoredNothing(store.permissions, base, docs);
    while i < |docs|
      invariant 0 <= i <= |docs|
      invariant store.Valid()
      invariant store.nextId == base + i
      invariant |ids| == i && forall j :: 0 <= j < i ==> ids[j] == base + j
      invariant store.permissions == old(store.permissions) + Stored(base, docs[..i])
      invariant store.users == old(store.users) && store.organizations == old(store.organizations)
      invariant store.roles == old(store.roles) && store.verifications == old(store.verifications)
    {
      var id := CreateSinglePermission(store, docs[i].name, docs[i].value, docs[i].description);
      assert Permission(docs[i].name, docs[i].value, docs[i].description, None) == docs[i];
      SaveStep(old(store.permissions), base, docs, i);
      ids := ids + [id];
      i := i + 1;
    }
    assert docs[..i] == docs;
  }

  /**
   * `createAllPermissions`: the nine permissions of the name table, saved in its order,
   * their ids collected as they come.
   */
  method CreateAllPermissions(store: Store) returns (ids: seq<Id>)
    requires store.Valid()
    modifies store
    ensures store.Valid()
    ensures |ids| == |PERMISSION_NAMES| && forall j :: 0 <= j < |ids| ==> ids[j] == old(store.nextId) + j
    ensures store.nextId == old(store.nextId) + |PERMISSION_NAMES|
    ensures store.permissions == old(store.permissions) + Stored(old(store.nextId), SeededPermissions())
    ensures store.users == old(store.users) && store.organizations == old(store.organizations)
    ensures store.roles == old(store.roles) && store.verifications == old(store.verifications)
  {
    ids := SavePermissions(store, SeededPermissions());
  }

  /** The ids `base`, `base + 1`, ..., `base + n - 1`. */
  function IdRange(base: Id, n: nat): (ids: seq<Id>)
    ensures |ids| == n && forall i :: 0 <= i < n ==> ids[i] == base + i
  {
    seq(n, i requires 0 <= i < n => base + i)
  }

  /** `createSingleRole(name, description, permissions)`: saves one role granting those permissions. */
  method CreateSingleRole(store: Store, name: string, description: string, permissions: seq<Id>) returns (id: Id)
    requires store.Valid()
    modifies store
    ensures store.Valid()
    ensures id == old(store.nextId) && store.nextId == id + 1
    ensures store.roles == old(store.roles)[id := Role(name, description, permissions, None)]
    ensures store.users == old(store.users) && store.organizations == old(store.organizations)
    ensures store.permissions == old(store.permissions) && store.verifications == old(store.verifications)
  {
    id := store.InsertRole(Role(name, description, permissions, None));
  }

  /**
   * Saving roles one after the other with `createSingleRole`, collecting their ids in
   * order: the i-th role gets the i-th id handed out.
   */
  method SaveRoles(store: Store, docs: seq<Role>) returns (ids: seq<Id>)
    requires store.Valid()
    requires forall j :: 0 <= j < |docs| ==> docs[j].href == None
    modifies store
    ensures store.Valid()
    ensures |ids| == |docs| && forall j :: 0 <= j < |ids| ==> ids[j] == old(store.nextId) + j
    ensures store.nextId == old(store.nextId) + |docs|
    ensures store.roles == old(store.roles) + Stored(old(store.nextId), docs)
    ensures store.users == old(store.users) && store.organizations == old(store.organizations)
    ensures store.permissions == old(store.permissions) && store.verifications == old(store.verifications)
  {
    var base := store.nextId;
    ids := [];
    var i := 0;
    StoredNothing(store.roles, base, docs);
    while i < |docs|
      invariant 0 <= i <= |docs|
      invariant store.Valid()
      invariant store.nextId == base + i
      invariant |ids| == i && forall j :: 0 <= j < i ==> ids[j] == base + j
      invariant store.roles == old(store.roles) + Stored(base, docs[..i])
      invariant store.users == old(store.users) && store.organizations == old(store.organizations)
      invariant store.permissions == old(store.permissions) && store.verifications == old(store.verifications)
    {
      var id := CreateSingleRole(store, docs[i].name, docs[i].description, docs[i].permissions);
      assert Role(docs[i].name, docs[i].description, docs[i].permissions, None) == docs[i];
      SaveStep(old(store.roles), base, docs, i);
      ids := ids + [id];
      i := i + 1;
    }
    assert docs[..i] == docs;
  }

  /** The system organization as first saved, before its user list is filled in. */
  function SystemOrganization(): (o: Organization)
    ensures o.name == Constants.SYSTEM_ORGANIZATION_NAME && o.isSystem && o.orgType == OrganizationType.SystemOrganization
  {
    Organization(Constants.SYSTEM_ORGANIZATION_NAME, OrganizationType.SystemOrganization, true, [], [], None)
  }

  /** The guest organization, the holding place for users who have not been upgraded. */
  function GuestOrganization(): (o: Organization)
    ensures o.name == Constants.GUEST_ORGANIZATION_NAME && !o.isSystem && o.orgType == OrganizationType.GuestOrganization
    ensures o.users == []
  {
    Organization(Constants.GUEST_ORGANIZATION_NAME, OrganizationType.GuestOrganization, false, [], [], None)
  }

  /** The system user: an administrator of the system organization. */
  function SystemUser(passwordHash: string, organization: Id, adminRole: Id, emailVerified: bool): (u: User)
    ensures u.email == Constants.SYSTEM_USER_EMAIL && u.password == Some(passwordHash)
    ensures u.organizationId == Some(organization) && u.roles == [adminRole]
    ensures u.isEmailVerified == emailVerified && !u.isTokenExpired && u.isActive
  {
    User(Some("system"), Some("system"), Constants.SYSTEM_USER_EMAIL, Some(passwordHash), false, emailVerified, true,
         None, Some(organization), [adminRole])
  }

  /** The administrator role, granted the given permissions. */
  function AdminRole(permissions: seq<Id>): (r: Role)
    ensures r.name == Constants.ADMIN_ROLE && r.permissions == permissions
  {
    Role(Constants.ADMIN_ROLE, "amdministrator", permissions, None)
  }

  /** The roles saved after the guest organization, in order, granted the given permissions. */
  function LaterRoles(permissions: seq<Id>): (rs: seq<Role>)
    ensures |rs| == 4 && forall i :: 0 <= i < 4 ==> rs[i].permissions == permissions && rs[i].href == None
    ensures rs[0].name == Constants.GUEST_ROLE
  {
    [Role("guest", "guest", permissions, None),
     Role("impersonator", "impersonator", permissions, None),
     Role("supplier:owner", "supplier owner access to sensitive info", permissions, None),
     Role("supplier:user", "supplier employee no access to sensitive info", permissions, None)]
  }

  /**
   * The system organization, the administrator role and the system user, saved in that
   * order. The user's save raises when the system email is taken; the organization and
   * the role stay saved.
   */
  method CreateSystemAccount(store: Store, permissions: seq<Id>, passwordHash: string, emailVerified: bool)
    returns (r: Result<Id, Fault>)
    requires store.Valid() && store.organizations == map[]
    modifies store
    ensures store.Valid()
    ensures var base := old(store.nextId);
            && store.roles == old(store.roles)[base + 1 := AdminRole(permissions)]
            && store.permissions == old(store.permissions) && store.verifications == old(store.verifications)
    ensures EmailTaken(old(store.users), Constants.SYSTEM_USER_EMAIL) ==>
              var base := old(store.nextId);
              && r == Err(DuplicateKey) && store.users == old(store.users)
              && store.organizations == map[base := SystemOrganization()]
              && store.nextId == base + 2
    ensures !EmailTaken(old(store.users), Constants.SYSTEM_USER_EMAIL) ==>
              var base := old(store.nextId);
              && r == Ok(base + 2)
              && store.users == old(store.users)[base + 2 := SystemUser(passwordHash, base, base + 1, emailVerified)]
              && store.organizations == map[base := SystemOrganization().(users := [base + 2])]
              && store.nextId == base + 3
  {
    var systemOrg := store.InsertOrganization(SystemOrganization());
    assert systemOrg.Ok?;
    var adminRole := CreateSingleRole(store, Constants.ADMIN_ROLE, "amdministrator", permissions);
    var systemUser := store.InsertUser(SystemUser(passwordHash, systemOrg.value, adminRole, emailVerified));
    if systemUser.Err? {
      return Err(systemUser.error);
    }
    // Linking the user back is a save of the organization under its own name.
    var linkedOrg := SystemOrganization().(users := [systemUser.value]);
    assert store.organizations - {systemOrg.value} == map[];
    var linked := store.SaveOrganization(systemOrg.value, linkedOrg);
    assert linked.Ok?;
    assert map[systemOrg.value := SystemOrganization()][systemOrg.value := linkedOrg] == map[systemOrg.value := linkedOrg];
    return Ok(systemUser.value);
  }

  /** The guest organization and the four remaining roles, saved in that order. */
  method CreateGuestOrganizationAndRoles(store: Store, permissions: seq<Id>)
    requires store.Valid() && !OrgNameTaken(store.organizations, Constants.GUEST_ORGANIZATION_NAME)
    modifies store
    ensures store.Valid()
    ensures var base := old(store.nextId);
            && store.organizations == old(store.organizations)[base := GuestOrganization()]
            && store.roles == old(store.roles) + Stored(base + 1, LaterRoles(permissions))
            && store.nextId == base + 5
    ensures store.users == old(store.users) && store.permissions == old(store.permissions)
    ensures store.verifications == old(store.verifications)
  {
    var base := store.nextId;
    var guestOrg := store.InsertOrganization(GuestOrganization());
    assert guestOrg.Ok?;
    var ids := SaveRoles(store, LaterRoles(permissions));
  }

  /**
   * `seed`: on a database without organizations, saves the nine permissions, the system
   * account (its email-confirmation flag is the caller's: set in the server generation,
   * left at its default in the earlier one), then the guest organization and the four
   * remaining roles, every role granted every permission. With any organization present
   * it does nothing. When the system email is already taken the seeding stops with that
   * error, and what was saved before it stays.
   */
  method SeedWith(store: Store, systemUserPassword: string, hash: (string, nat) -> string, emailVerified: bool)
    returns (r: Result<(), Fault>)
    requires store.Valid()
    modifies store
    ensures store.Valid()
    ensures SeedEffect(store, hash(systemUserPassword, Constants.SALT_ROUNDS), emailVerified, r)
  {
    if store.organizations != map[] {
      return Ok(());
    }
    var base := store.nextId;
    var permissions := CreateAllPermissions(store);
    assert permissions == IdRange(base, 9);
    var passwordHash := hash(systemUserPassword, Constants.SALT_ROUNDS);
    var account := CreateSystemAccount(store, permissions, passwordHash, emailVerified);
    if account.Err? {
      return Err(account.error);
    }
    CreateGuestOrganizationAndRoles(store, permissions);
    r := Ok(());
  }

  /**
   * The organizations a successful seeding leaves behind: the lookup by the name "system"
   * finds the system organization listing the system user, and the one by "guest" finds
   * the guest organization.
   */
  ghost predicate SeededOrganizations(organizations: map<Id, Organization>, base: Id)
  {
    && GetSystemOrganization(organizations) == Some(Found(base + 9, SystemOrganization().(users := [base + 11])))
    && GetGuestOrganization(organizations) == Some(Found(base + 12, GuestOrganization()))
  }

  lemma {:induction false} SeededOrganizationsFound(orgs: map<Id, Organization>, base: Id)
    requires orgs == map[base + 9 := SystemOrganization().(users := [base + 11]), base + 12 := GuestOrganization()]
    ensures UniqueOrgNames(orgs) && SeededOrganizations(orgs, base)
  {
    assert orgs.Keys == {base + 9, base + 12};
    assert OrgNameTaken(orgs, "system") by { assert orgs[base + 9].name == "system"; }
    assert OrgNameTaken(orgs, "guest") by { assert orgs[base + 12].name == "guest"; }
  }

  /** The system user is the one found by the system email, and is an administrator. */
  ghost predicate SeededSystemUser(users: map<Id, User>, base: Id, emailVerified: bool)
  {
    && FindUserByEmail(users, Constants.SYSTEM_USER_EMAIL).Some?
    && FindUserByEmail(users, Constants.SYSTEM_USER_EMAIL).value.id == base + 11
    && base + 11 in users && users[base + 11].isEmailVerified == emailVerified
    && users[base + 11].roles == [base + 10] && users[base + 11].organizationId == Some(base + 9)
  }

  lemma SeededSystemUserFound(usersBefore: map<Id, User>, users: map<Id, User>, base: Id, passwordHash: string,
                              emailVerified: bool)
    requires users == usersBefore[base + 11 := SystemUser(passwordHash, base + 9, base + 10, emailVerified)]
    requires UniqueEmails(users)
    ensures SeededSystemUser(users, base, emailVerified)
  {
    FindUserByEmailUnique(users, Constants.SYSTEM_USER_EMAIL, base + 11);
  }

  /**
   * The nine permissions are stored from `base` on, and the administrator role and the
   * four later roles are each granted all of them.
   */
  ghost predicate SeededGrants(roles: map<Id, Role>, permissions: map<Id, Permission>, base: Id)
  {
    && (forall k :: base <= k < base + 9 ==> k in permissions && permissions[k] == PermissionNamed(PERMISSION_NAMES[k - base]))
    && base + 10 in roles && roles[base + 10].name == Constants.ADMIN_ROLE
    && (forall k :: k == base + 10 || base + 13 <= k < base + 17 ==> k in roles && roles[k].permissions == IdRange(base, 9))
  }

  lemma {:induction false} SeededPermissionsStored(before: map<Id, Permission>, permissions: map<Id, Permission>, base: Id)
    requires permissions == before + Stored(base, SeededPermissions())
    ensures forall k :: base <= k < base + 9 ==> k in permissions && permissions[k] == PermissionNamed(PERMISSION_NAMES[k - base])
  {
    StoredContents(base, SeededPermissions());
    forall k | base <= k < base + 9
      ensures k in permissions && permissions[k] == PermissionNamed(PERMISSION_NAMES[k - base])
    {
      assert Stored(base, SeededPermissions())[base + (k - base)] == SeededPermissions()[k - base];
    }
  }

  lemma {:induction false} SeededRolesStored(before: map<Id, Role>, roles: map<Id, Role>, base: Id)
    requires roles == before[base + 10 := AdminRole(IdRange(base, 9))] + Stored(base + 13, LaterRoles(IdRange(base, 9)))
    ensures base + 10 in roles && roles[base + 10].name == Constants.ADMIN_ROLE
    ensures forall k :: k == base + 10 || base + 13 <= k < base + 17 ==> k in roles && roles[k].permissions == IdRange(base, 9)
  {
    var later := LaterRoles(IdRange(base, 9));
    StoredContents(base + 13, later);
    forall k | base + 13 <= k < base + 17
      ensures k in roles && roles[k].permissions == IdRange(base, 9)
    {
      assert Stored(base + 13, later)[base + 13 + (k - base - 13)] == later[k - base - 13];
    }
  }

  lemma SeededGrantsStored(rolesBefore: map<Id, Role>, permissionsBefore: map<Id, Permission>,
                           roles: map<Id, Role>, permissions: map<Id, Permission>, base: Id)
    requires roles == rolesBefore[base + 10 := AdminRole(IdRange(base, 9))] + Stored(base + 13, LaterRoles(IdRange(base, 9)))
    requires permissions == permissionsBefore + Stored(base, SeededPermissions())
    ensures SeededGrants(roles, permissions, base)
  {
    SeededPermissionsStored(permissionsBefore, permissions, base);
    SeededRolesStored(rolesBefore, roles, base);
  }

  /** Everything a successful seeding from `base` on leaves behind. */
  ghost predicate SeededState(organizations: map<Id, Organization>, users: map<Id, User>, roles: map<Id, Role>,
                              permissions: map<Id, Permission>, base: Id, emailVerified: bool)
  {
    && SeededOrganizations(organizations, base)
    && SeededSystemUser(users, base, emailVerified)
    && SeededGrants(roles, permissions, base)
  }

  /** The maps `SeedWith` leaves behind on success satisfy `SeededState`. */
  lemma SeedingReachesSeededState(usersBefore: map<Id, User>, rolesBefore: map<Id, Role>,
                                  permissionsBefore: map<Id, Permission>,
                                  organizations: map<Id, Organization>, users: map<Id, User>, roles: map<Id, Role>,
                                  permissions: map<Id, Permission>, base: Id, passwordHash: string, emailVerified: bool)
    requires organizations == map[base + 9 := SystemOrganization().(users := [base + 11]), base + 12 := GuestOrganization()]
    requires users == usersBefore[base + 11 := SystemUser(passwordHash, base + 9, base + 10, emailVerified)]
    requires UniqueEmails(users)
    requires roles == rolesBefore[base + 10 := AdminRole(IdRange(base, 9))] + Stored(base + 13, LaterRoles(IdRange(base, 9)))
    requires permissions == permissionsBefore + Stored(base, SeededPermissions())
    ensures SeededState(organizations, users, roles, permissions, base, emailVerified)
  {
    SeededOrganizationsFound(organizations, base);
    SeededSystemUserFound(usersBefore, users, base, passwordHash, emailVerified);
    SeededGrantsStored(rolesBefore, permissionsBefore, roles, permissions, base);
  }

  /**
   * What `SeedWith` does to the store, between the state before it and the state after:
   * nothing when an organization exists; otherwise the nine permissions from the old id
   * counter `base` on, and then either the refused system user (the system organization
   * and the administrator role left behind, `DuplicateKey` reported) or the full data set,
   * with `passwordHash` as the system user's password. Verification records are never touched.
   */
  twostate predicate SeedEffect(store: Store, passwordHash: string, emailVerified: bool, new r: Result<(), Fault>)
    reads store
  {
    var base := old(store.nextId);
    && (old(store.organizations) != map[] ==>
          && r == Ok(()) && store.nextId == base
          && store.users == old(store.users) && store.organizations == old(store.organizations)
          && store.roles == old(store.roles) && store.permissions == old(store.permissions))
    && (old(store.organizations) == map[] ==>
          store.permissions == old(store.permissions) + Stored(base, SeededPermissions()))
    && (old(store.organizations) == map[] && EmailTaken(old(store.users), Constants.SYSTEM_USER_EMAIL) ==>
          && r == Err(DuplicateKey)
          && store.users == old(store.users)
          && store.organizations == map[base + 9 := SystemOrganization()]
          && store.roles == old(store.roles)[base + 10 := AdminRole(IdRange(base, 9))])
    && (old(store.organizations) == map[] && !EmailTaken(old(store.users), Constants.SYSTEM_USER_EMAIL) ==>
          && r == Ok(())
          && store.organizations == map[base + 9 := SystemOrganization().(users := [base + 11]),
                                        base + 12 := GuestOrganization()]
          && store.users == old(store.users)[base + 11 := SystemUser(passwordHash, base + 9, base + 10, emailVerified)]
          && store.roles == old(store.roles)[base + 10 := AdminRole(IdRange(base, 9))]
                            + Stored(base + 13, LaterRoles(IdRange(base, 9)))
          && store.nextId == base + 17)
    && store.verifications == old(store.verifications)
  }

  /** One document under an id below `base`, then documents saved from `base` on: one id each. */
  lemma {:induction false} StoredAfterOneCount<T>(k: Id, v: T, base: Id, docs: seq<T>)
    requires k < base
    ensures |map[k := v] + Stored(base, docs)| == |docs| + 1
  {
    StoredCount(base, docs);
    StoredContents(base, docs);
    assert map[k := v] + Stored(base, docs) == Stored(base, docs)[k := v];
  }

  /**
   * Seeding an empty database leaves exactly two organizations, one user, five roles and
   * nine permissions: the maps `SeedEffect` promises on success, started from empty ones.
   */
  lemma SeedingEmptyDatabaseCounts(organizations: map<Id, Organization>, users: map<Id, User>,
                                   roles: map<Id, Role>, permissions: map<Id, Permission>, base: Id,
                                   passwordHash: string, emailVerified: bool)
    requires organizations == map[base + 9 := SystemOrganization().(users := [base + 11]), base + 12 := GuestOrganization()]
    requires users == map[][base + 11 := SystemUser(passwordHash, base + 9, base + 10, emailVerified)]
    requires roles == map[][base + 10 := AdminRole(IdRange(base, 9))] + Stored(base + 13, LaterRoles(IdRange(base, 9)))
    requires permissions == map[] + Stored(base, SeededPermissions())
    ensures |organizations| == 2 && |users| == 1 && |roles| == 5 && |permissions| == 9
  {
    StoredAfterOneCount(base + 10, AdminRole(IdRange(base, 9)), base + 13, LaterRoles(IdRange(base, 9)));
    StoredCount(base, SeededPermissions());
    assert map[] + Stored(base, SeededPermissions()) == Stored(base, SeededPermissions());
  }

  /**
   * `seed` of the server generation: the system user is created with its email already
   * verified. A seeding that succeeds leaves the seeded organizations, system user and
   * grants behind.
   */
  method Seed(store: Store, systemUserPassword: string, hash: (string, nat) -> string) returns (r: Result<(), Fault>)
    requires store.Valid()
    modifies store
    ensures store.Valid()
    ensures old(store.organizations) != map[] ==>
              && r == Ok(()) && store.nextId == old(store.nextId)
              && store.users == old(store.users) && store.organizations == old(store.organizations)
              && store.roles == old(store.roles) && store.permissions == old(store.permissions)
    ensures old(store.organizations) == map[] ==>
              (r.Ok? <==> !EmailTaken(old(store.users), Constants.SYSTEM_USER_EMAIL))
    ensures old(store.organizations) == map[] && r.Ok? ==>
              SeededState(store.organizations, store.users, store.roles, store.permissions, old(store.nextId), true)
    ensures SeedEffect(store, hash(systemUserPassword, Constants.SALT_ROUNDS), true, r)
  {
    r := SeedAs(store, systemUserPassword, hash, true);
  }

  /** `seed` of the earlier generation: the same, except that the system user's email is not verified. */
  method LegacySeed(store: Store, systemUserPassword: string, hash: (string, nat) -> string) returns (r: Result<(), Fault>)
    requires store.Valid()
    modifies store
    ensures store.Valid()
    ensures old(store.organizations) != map[] ==>
              && r == Ok(()) && store.nextId == old(store.nextId)
              && store.users == old(store.users) && store.organizations == old(store.organizations)
              && store.roles == old(store.roles) && store.permissions == old(store.permissions)
    ensures old(store.organizations) == map[] ==>
              (r.Ok? <==> !EmailTaken(old(store.users), Constants.SYSTEM_USER_EMAIL))
    ensures old(store.organizations) == map[] && r.Ok? ==>
              SeededState(store.organizations, store.users, store.roles, store.permissions, old(store.nextId), false)
    ensures SeedEffect(store, hash(systemUserPassword, Constants.SALT_ROUNDS), false, r)
  {
    r := SeedAs(store, systemUserPassword, hash, false);
  }

  /** Seeding with the system user's verification flag as given, summarised by the seeded-state predicates. */
  method SeedAs(store: Store, systemUserPassword: string, hash: (string, nat) -> string, emailVerified: bool)
    returns (r: Result<(), Fault>)
    requires store.Valid()
    modifies store
    ensures store.Valid()
    ensures old(store.organizations) != map[] ==>
              && r == Ok(()) && store.nextId == old(store.nextId)
              && store.users == old(store.users) && store.organizations == old(store.organizations)
              && store.roles == old(store.roles) && store.permissions == old(store.permissions)
    ensures old(store.organizations) == map[] ==>
              (r.Ok? <==> !EmailTaken(old(store.users), Constants.SYSTEM_USER_EMAIL))
    ensures old(store.organizations) == map[] && r.Ok? ==>
              SeededState(store.organizations, store.users, store.roles, store.permissions, old(store.nextId), emailVerified)
    ensures SeedEffect(store, hash(systemUserPassword, Constants.SALT_ROUNDS), emailVerified, r)
  {
    r := SeedWith(store, systemUserPassword, hash, emailVerified);
    if old(store.organizations) == map[] && r.Ok? {
      SeedingReachesSeededState(old(store.users), old(store.roles), old(store.permissions), store.organizations,
                                store.users, store.roles, store.permissions, old(store.nextId),
                                hash(systemUserPassword, Constants.SALT_ROUNDS), emailVerified);
    }
  }
}

=== FILE: client.dfy ===
/**
 * Two pieces of the Angular client: the password-reset form's check of the two password
 * fields (client/src/app/password-reset/password-reset.component.ts) and the mapping of
 * a failed API call to the error the services hand on (client/src/services/base/base.service.ts).
 */
module Client {
  import opened Wrappers
  import opened Identifiers
  import opened Http

  const BOTH_FIELDS := "You must enter a new password in both fields."
  const NO_MATCH := "The two passwords don't match."
  const TOO_SHORT := "Password must be 6 characters."

  /**
   * What is wrong with the two fields, checked in the form's order: an empty field, then
   * two different entries, then a password shorter than six characters.
   */
  function PasswordProblem(password1: string, password2: string): (m: Option<string>)
    ensures m.None? <==> password1 == password2 && |password1| >= 6
    ensures m == Some(BOTH_FIELDS) <==> |password1| == 0 || |password2| == 0
    ensures m == Some(NO_MATCH) <==> |password1| > 0 && |password2| > 0 && password1 != password2
    ensures m == Some(TOO_SHORT) <==> |password1| > 0 && password1 == password2 && |password1| < 6
  {
    if |password1| == 0 || |password2| == 0 then Some(BOTH_FIELDS)
    else if password1 != password2 then Some(NO_MATCH)
    else if |password1| < 6 then Some(TOO_SHORT)
    else None
  }

  /** The password-reset form: its two fields and the flags and message the page shows. */
  class PasswordResetComponent {
    var showSuccess: bool
    var showError: bool
    var showWarning: bool
    var password1: string
    var password2: string
    /** Unset until the first warning. */
    var warningMessage: Option<string>

    constructor ()
      ensures !showSuccess && !showError && !showWarning
      ensures password1 == "" && password2 == "" && warningMessage == None
    {
      showSuccess := false;
      showError := false;
      showWarning := false;
      password1 := "";
      password2 := "";
      warningMessage := None;
    }

    /**
     * `saveNewPassword`: the first problem with the fields is shown as a warning; when
     * there is none nothing changes (the form saves nothing itself). The fields and the
     * other flags are never touched.
     */
    method SaveNewPassword()
      modifies this
      ensures password1 == old(password1) && password2 == old(password2)
      ensures showSuccess == old(showSuccess) && showError == old(showError)
      ensures PasswordProblem(password1, password2).Some? ==>
                showWarning && warningMessage == PasswordProblem(password1, password2)
      ensures PasswordProblem(password1, password2).None? ==>
                showWarning == old(showWarning) && warningMessage == old(warningMessage)
      ensures |password1| > 0 && |password2| > 0 && password1 != password2 ==> warningMessage == Some(NO_MATCH)
      ensures |password1| > 0 && password1 == password2 && |password1| < 6 ==> warningMessage == Some(TOO_SHORT)
    {
      if |password1| == 0 || |password2| == 0 {
        showWarning := true;
        warningMessage := Some(BOTH_FIELDS);
        return;
      }
      if password1 != password2 {
        showWarning := true;
        warningMessage := Some(NO_MATCH);
        return;
      }
      if |password1| < 6 {
        showWarning := true;
        warningMessage := Some(TOO_SHORT);
        return;
      }
    }
  }

  /**
   * The body of a failed response as `json()` reads it: text that is not JSON at all (an
   * empty body, an HTML error page), on which `json()` raises; or JSON whose `error`
   * member is missing (a JSON `null` body reads so too), `null`, or an object.
   */
  datatype ErrorMember =
    | NotJson
    | Missing
    | NullValue
    | Present(message: Option<string>, detail: Option<string>)

  /** What `handleError` is given: an HTTP response, or anything else that was thrown. */
  datatype Failure =
    | ResponseFailure(status: nat, statusText: Option<string>, error: ErrorMember)
    | ThrownValue(message: Option<string>, asText: string)

  /** The client's `ServiceError`. */
  datatype ServiceError = ServiceError(
    message: string,
    description: Option<string>,
    statusCode: Option<nat>,
    statusText: Option<string>)

  /**
   * `handleError`: a response whose body carries an error with a message and a detail
   * passes those on; otherwise a status of 0 (the call never reached the server) reads
   * "API call failed", and any other status reads "<status> - <status text>". The status
   * and its text are kept. Anything thrown that is not a response passes its message on,
   * or its text when it has none. A body that is not JSON makes `json()` raise, and a
   * body whose `error` is `null` makes the check itself fail on a property read.
   */
  function HandleError(failure: Failure): (r: Result<ServiceError, Fault>)
    ensures r.Err? <==> failure.ResponseFailure? && (failure.error.NotJson? || failure.error.NullValue?)
    ensures r.Err? ==> r.error == (if failure.error.NotJson? then JsonSyntaxError else NullDereference)
    ensures failure.ResponseFailure? && r.Ok? ==>
              r.value.statusCode == Some(failure.status) && r.value.statusText == failure.statusText
    ensures failure.ResponseFailure? && failure.error.Present? && failure.error.message.Some?
            && failure.error.detail.Some? ==>
              r == Ok(ServiceError(failure.error.message.value, failure.error.detail, Some(failure.status), failure.statusText))
    ensures r.Ok? && r.value.description.Some? ==> failure.ResponseFailure? && failure.error.Present?
    ensures failure.ResponseFailure? && (failure.error.Missing? || failure.error.Present?) &&
            !(failure.error.Present? && failure.error.message.Some? && failure.error.detail.Some?) && failure.status == 0 ==>
              r.Ok? && r.value.message == "API call failed"
    ensures failure.ThrownValue? ==>
              r.Ok? && r.value.statusCode == None
              && r.value.message == (if failure.message.Some? then failure.message.value else failure.asText)
  {
    match failure
    case ResponseFailure(status, statusText, error) =>
      if error.NotJson? then Err(JsonSyntaxError)
      else if error.NullValue? then Err(NullDereference)
      else
        var message :=
          if error.Present? && error.message.Some? && error.detail.Some? then error.message.value
          else if status == 0 then "API call failed"
          else IdText(status) + " - " + (if Truthy(statusText) then statusText.value else "");
        var description := if error.Present? && error.message.Some? && error.detail.Some? then error.detail else None;
        Ok(ServiceError(message, description, Some(status), statusText))
    case ThrownValue(message, asText) =>
      Ok(ServiceError(if message.Some? then message.value else asText, None, None, None))
  }

  /**
   * Without an error message in the body, the message of a failed response names its
   * status: it starts with the status's digits, read back by the first " - ".
   */
  lemma {:induction false} StatusMessageNamesStatus(status: nat, statusText: Option<string>, error: ErrorMember)
    requires !error.NotJson? && !error.NullValue? && !(error.Present? && error.message.Some? && error.detail.Some?)
    requires status != 0
    ensures var r := HandleError(ResponseFailure(status, statusText, error));
            && r.Ok?
            && exists n :: 0 < n <= |r.value.message| && ParseId(r.value.message[..n]) == Some(status)
                           && r.value.message[n..] == " - " + (if Truthy(statusText) then statusText.value else "")
  {
    var digits := IdText(status);
    var rest := " - " + (if Truthy(statusText) then statusText.value else "");
    var message := digits + rest;
    var r := HandleError(ResponseFailure(status, statusText, error));
    assert r.Ok?;
    assert r.value.message == message;
    ParseIdText(status);
    assert message[..|digits|] == digits;
    assert message[|digits|..] == rest;
  }
}

=== FILE: constants.dfy ===
/**
 * The constant values the core reads: endpoint segments, the request slot holding the
 * decoded token, error codes, bcrypt's cost and the token lifetimes.
 *
 * Several names the server code uses are absent from server/constants.ts
 * (GUEST_ROLE, SUPPLIER_EDITOR_ROLE, PRODUCT_EDITOR_ROLE, errorCodes.ORG_NAME_TAKEN).
 * Read as written they are `undefined`; here they are given the values the rest of the
 * system uses for those roles ("guest" is the name seeding stores and registration looks
 * up), and the role gates, the upgrade check and the guest role lookups depend on those
 * values. Names the older generation reads through an undefined `Constants` object are
 * declared without a value.
 */
module Constants {

  // Endpoint segments (server/constants.ts)
  const API := "/api"
  const V1 := "/v1"
  const AUTHENTICATION := "/authenticate"
  const REGISTER := "/register"
  const VALIDATE_EMAIL := "/validate-email"
  const USERS := "/users"
  const ORGANIZATIONS := "/organizations"
  const ROLES := "/roles"
  const PERMISSIONS := "/permissions"

  /** Where the decoded token is kept on the request object. */
  const REQUEST_TOKEN_LOCATION := "api-decoded-token"
  const SALT_ROUNDS: nat := 10

  // Error codes
  const EMAIL_TAKEN := "EmailAlreadyTaken"
  const PASSWORD_FAILED_CHECKS := "PasswordFailedChecks"
  /** Used by the upgrade workflow; its value is not defined in the constants file. */
  const ORG_NAME_TAKEN: string

  // Role names
  const ADMIN_ROLE := "admin"
  const GUEST_ROLE := "guest"
  const SUPPLIER_EDITOR_ROLE := "supplier:editor"
  const PRODUCT_EDITOR_ROLE := "product:editor"

  // Names read through `Constants.…` in the older generation; no value is defined for them.
  const LEGACY_REQUEST_TOKEN_LOCATION: string
  const LEGACY_API_ENDPOINT: string
  const LEGACY_USERS_ENDPOINT: string
  const LEGACY_SALT_ROUNDS: nat

  /** The soft, application-level token lifetime: one day, in seconds. */
  const SOFT_EXPIRY_SECONDS := 24 * 60 * 60
  /** The hard lifetime handed to the signer (`expiresIn: '25h'`), in seconds. */
  const HARD_EXPIRY_SECONDS := 25 * 60 * 60

  /** The two organizations bootstrap creates are found by these names. */
  const GUEST_ORGANIZATION_NAME := "guest"
  const SYSTEM_ORGANIZATION_NAME := "system"
  const SYSTEM_USER_EMAIL := "system@leblum.com"
}

=== FILE: controllers.dfy ===
/**
 * The per-resource controller hooks of both generations: the `href` each document
 * receives before it is saved, the user hooks that hash and hide the password, and the
 * ownership members of the organization, role and permission controllers
 * (the controllers under server/controllers and src/controllers).
 */
module Controllers {
  import opened Wrappers
  import opened Identifiers
  import opened Enumerations
  import opened Models
  import opened Http
  import Constants

  /** A document being prepared for a save: its id is fixed, its fields are assigned in place. */
  class Document<T> {
    const id: Id
    var fields: T

    constructor (id: Id, fields: T)
      ensures this.id == id && this.fields == fields
    {
      this.id := id;
      this.fields := fields;
    }
  }

  /** `${API}${collection}/${id}`: where a document of a collection is served. */
  function Href(api: string, collection: string, id: Id): (h: string)
    ensures |h| > |api + collection + "/"| && h[..|api + collection + "/"|] == api + collection + "/"
  {
    api + collection + "/" + IdText(id)
  }

  /** The text after the collection's path is the document's id: the href names its document. */
  lemma HrefNamesTheDocument(api: string, collection: string, id: Id)
    ensures var prefix := api + collection + "/";
            Href(api, collection, id)[|prefix|..] == IdText(id) &&
            ParseId(Href(api, collection, id)[|prefix|..]) == Some(id)
  {
    var prefix := api + collection + "/";
    assert Href(api, collection, id)[|prefix|..] == IdText(id);
    ParseIdText(id);
  }

  /** Distinct documents of a collection get distinct hrefs. */
  lemma HrefInjective(api: string, collection: string, a: Id, b: Id)
    ensures Href(api, collection, a) == Href(api, collection, b) ==> a == b
  {
    HrefNamesTheDocument(api, collection, a);
    HrefNamesTheDocument(api, collection, b);
  }

  /**
   * The organization controller's `preCreateHook` (and, in the earlier generation, its
   * `preUpdateHook` as well): the document is given its href and nothing else changes.
   */
  method OrganizationHrefHook(model: Document<Organization>) returns (r: Document<Organization>)
    modifies model
    ensures r == model
    ensures model.fields == old(model.fields).(href := Some(Href(Constants.API, Constants.ORGANIZATIONS, model.id)))
  {
    model.fields := model.fields.(href := Some(Href(Constants.API, Constants.ORGANIZATIONS, model.id)));
    return model;
  }

  /** The role controller's href hook, as for organizations. */
  method RoleHrefHook(model: Document<Role>) returns (r: Document<Role>)
    modifies model
    ensures r == model
    ensures model.fields == old(model.fields).(href := Some(Href(Constants.API, Constants.ROLES, model.id)))
  {
    model.fields := model.fields.(href := Some(Href(Constants.API, Constants.ROLES, model.id)));
    return model;
  }

  /** The permission controller's href hook, as for organizations. */
  method PermissionHrefHook(model: Document<Permission>) returns (r: Document<Permission>)
    modifies model
    ensures r == model
    ensures model.fields == old(model.fields).(href := Some(Href(Constants.API, Constants.PERMISSIONS, model.id)))
  {
    model.fields := model.fields.(href := Some(Href(Constants.API, Constants.PERMISSIONS, model.id)));
    return model;
  }

  /**
   * The user controller's `preCreateHook`: the href is set, then the password replaced
   * by its hash. A user without a password makes the hash call fail, after the href has
   * already been assigned.
   */
  method UserPreCreateHook(user: Document<User>, hash: (string, nat) -> string) returns (r: Result<Document<User>, Fault>)
    modifies user
    ensures old(user.fields).password.None? ==>
              r == Err(MissingHashInput) &&
              user.fields == old(user.fields).(href := Some(Href(Constants.API, Constants.USERS, user.id)))
    ensures old(user.fields).password.Some? ==>
              r == Ok(user) &&
              user.fields == old(user.fields).(href := Some(Href(Constants.API, Constants.USERS, user.id)),
                                               password := Some(hash(old(user.fields).password.value, Constants.SALT_ROUNDS)))
  {
    user.fields := user.fields.(href := Some(Href(Constants.API, Constants.USERS, user.id)));
    if user.fields.password.None? {
      return Err(MissingHashInput);
    }
    user.fields := user.fields.(password := Some(hash(user.fields.password.value, Constants.SALT_ROUNDS)));
    return Ok(user);
  }

  /**
   * The earlier generation's user `preCreateHook`: the same steps, with the endpoint names
   * and cost read through `Constants`.
   */
  method LegacyUserPreCreateHook(user: Document<User>, hash: (string, nat) -> string) returns (r: Result<Document<User>, Fault>)
    modifies user
    ensures old(user.fields).password.None? ==>
              r == Err(MissingHashInput) &&
              user.fields == old(user.fields).(href := Some(Href(Constants.LEGACY_API_ENDPOINT, Constants.LEGACY_USERS_ENDPOINT, user.id)))
    ensures old(user.fields).password.Some? ==>
              r == Ok(user) &&
              user.fields == old(user.fields).(href := Some(Href(Constants.LEGACY_API_ENDPOINT, Constants.LEGACY_USERS_ENDPOINT, user.id)),
                                               password := Some(hash(old(user.fields).password.value, Constants.LEGACY_SALT_ROUNDS)))
  {
    user.fields := user.fields.(href := Some(Href(Constants.LEGACY_API_ENDPOINT, Constants.LEGACY_USERS_ENDPOINT, user.id)));
    if user.fields.password.None? {
      return Err(MissingHashInput);
    }
    user.fields := user.fields.(password := Some(hash(user.fields.password.value, Constants.LEGACY_SALT_ROUNDS)));
    return Ok(user);
  }

  /** The earlier generation's user `preUpdateHook`: only the href is (re)assigned. */
  method LegacyUserPreUpdateHook(user: Document<User>) returns (r: Document<User>)
    modifies user
    ensures r == user
    ensures user.fields == old(user.fields).(href := Some(Href(Constants.LEGACY_API_ENDPOINT, Constants.LEGACY_USERS_ENDPOINT, user.id)))
  {
    user.fields := user.fields.(href := Some(Href(Constants.LEGACY_API_ENDPOINT, Constants.LEGACY_USERS_ENDPOINT, user.id)));
    return user;
  }

  /**
   * `preSendResponseHook` (both generations): the password is blanked before the user is
   * sent, so no response built from the document carries its hash.
   */
  method PreSendResponseHook(user: Document<User>) returns (r: Document<User>)
    modifies user
    ensures r == user
    ensures user.fields == old(user.fields).(password := Some(""))
  {
    user.fields := user.fields.(password := Some(""));
    return user;
  }

  /** `defaultPopulationArgument`: the references a controller populates when reading. */
  datatype Population = Population(path: string, populate: Option<Population>)

  /** The per-controller ownership settings. */
  datatype OwnershipSettings = OwnershipSettings(isOwnershipRequired: bool, rolesRequiringOwnership: seq<string>)

  const OrganizationOwnership := OwnershipSettings(true, [Constants.GUEST_ROLE, Constants.SUPPLIER_EDITOR_ROLE])
  const RoleOwnership := OwnershipSettings(false, [])
  const PermissionOwnership := OwnershipSettings(false, [])

  const OrganizationPopulation: Option<Population> := Some(Population("", None))
  const RolePopulation: Option<Population> := Some(Population("permissions", None))
  const PermissionPopulation: Option<Population> := None
  const UserPopulation: Option<Population> := Some(Population("roles", Some(Population("permissions", None))))

  /**
   * Of the three resources only organizations check ownership, and only for guests and
   * supplier editors: an administrator is never held to it.
   */
  lemma OwnershipOnlyForOrganizations()
    ensures OrganizationOwnership.isOwnershipRequired
    ensures !RoleOwnership.isOwnershipRequired && !PermissionOwnership.isOwnershipRequired
    ensures Constants.ADMIN_ROLE !in OrganizationOwnership.rolesRequiringOwnership
    ensures Constants.GUEST_ROLE in OrganizationOwnership.rolesRequiringOwnership
  {
  }

  /** The claims the token middleware stored on the request, if any. */
  function CurrentToken(req: Request): Option<TokenPayload>
  {
    if Constants.REQUEST_TOKEN_LOCATION in req.decoded then Some(req.decoded[Constants.REQUEST_TOKEN_LOCATION]) else None
  }

  /**
   * The organization controller's `addOwnerships`: the ownerships are replaced by the
   * single entry naming the requesting user as owner. Without stored claims, reading the
   * user id fails and the document is untouched.
   */
  method AddOrganizationOwnerships(req: Request, doc: Document<Organization>) returns (r: Result<(), Fault>)
    modifies doc
    ensures CurrentToken(req).None? ==> r == Err(NullDereference) && doc.fields == old(doc.fields)
    ensures CurrentToken(req).Some? ==>
              r == Ok(()) &&
              doc.fields == old(doc.fields).(ownerships := [Ownership(CurrentToken(req).value.userId, UserOwnership)])
  {
    var token := CurrentToken(req);
    if token.None? {
      return Err(NullDereference);
    }
    doc.fields := doc.fields.(ownerships := [Ownership(token.value.userId, UserOwnership)]);
    return Ok(());
  }

  /**
   * The organization controller's `isOwner`: asks the base controller's
   * `isOwnerInOwnership` whether the requesting user is an owner of type user. The base
   * controller is not part of this model; its predicate is the parameter
   * `isOwnerInOwnership`. Without stored claims, reading the user id raises.
   */
  function IsOrganizationOwner(req: Request, o: Organization,
                               isOwnerInOwnership: (Organization, string, OwnershipType) -> bool): (r: Result<bool, Fault>)
    ensures CurrentToken(req).None? <==> r == Err(NullDereference)
    ensures r.Ok? ==> r.value == isOwnerInOwnership(o, CurrentToken(req).value.userId, UserOwnership)
  {
    match CurrentToken(req)
    case None => Err(NullDereference)
    case Some(token) => Ok(isOwnerInOwnership(o, token.userId, UserOwnership))
  }

  /**
   * `isOwner` looks at nothing of the request but the stored user id: two requests whose
   * claims carry the same user id get the same answer for the same document.
   */
  lemma OwnerAnswerDependsOnlyOnUserId(a: Request, b: Request, o: Organization,
                                       isOwnerInOwnership: (Organization, string, OwnershipType) -> bool)
    requires CurrentToken(a).Some? && CurrentToken(b).Some?
    requires CurrentToken(a).value.userId == CurrentToken(b).value.userId
    ensures IsOrganizationOwner(a, o, isOwnerInOwnership) == IsOrganizationOwner(b, o, isOwnerInOwnership)
    ensures IsOrganizationOwner(a, o, isOwnerInOwnership).Ok?
  {
  }

  /**
   * The creator owns what it created, and nobody else does, PROVIDED the base
   * controller's predicate tests for an ownership entry naming that owner with that type
   * (the hypothesis below): after `addOwnerships` for one request, `isOwner` holds for a
   * request with the same user id and fails for any other user id.
   */
  lemma {:induction false} CreatorIsSoleOwner(creator: Request, other: Request, o: Organization,
                                              isOwnerInOwnership: (Organization, string, OwnershipType) -> bool)
    requires forall d: Organization, id: string, t: OwnershipType :: isOwnerInOwnership(d, id, t) <==>
               exists i :: 0 <= i < |d.ownerships| && d.ownerships[i] == Ownership(id, t)
    requires CurrentToken(creator).Some? && CurrentToken(other).Some?
    ensures var owned := o.(ownerships := [Ownership(CurrentToken(creator).value.userId, UserOwnership)]);
            IsOrganizationOwner(other, owned, isOwnerInOwnership) ==
            Ok(CurrentToken(other).value.userId == CurrentToken(creator).value.userId)
  {
    var owned := o.(ownerships := [Ownership(CurrentToken(creator).value.userId, UserOwnership)]);
    if CurrentToken(other).value.userId == CurrentToken(creator).value.userId {
      assert owned.ownerships[0] == Ownership(CurrentToken(other).value.userId, UserOwnership);
    }
  }

  /** The role controller's `isOwner`: roles are never ownership-checked, and asking raises. */
  function IsRoleOwner(req: Request, role: Role): (r: Result<bool, Fault>)
    ensures r.Err? && r.error == Raised("Roles don't require an ownership check")
  {
    Err(Raised("Roles don't require an ownership check"))
  }

  /** The permission controller's `isOwner`: likewise for permissions. */
  function IsPermissionOwner(req: Request, p: Permission): (r: Result<bool, Fault>)
    ensures r.Err? && r.error == Raised("Permissions don't require an ownership check")
  {
    Err(Raised("Permissions don't require an ownership check"))
  }
}

=== FILE: enumerations.dfy ===
/**
 * The two numeric enumerations of the data model and the helper that lists an
 * enumeration object's values (server/enumerations.ts).
 */
module Enumerations {
  import opened Identifiers

  /** The kind of an organization: system = 1, guest = 2, supplier = 3. */
  datatype OrganizationType = SystemOrganization | GuestOrganization | SupplierOrganization {
    function Value(): (v: int)
      ensures 1 <= v <= 3
    {
      match this
      case SystemOrganization => 1
      case GuestOrganization => 2
      case SupplierOrganization => 3
    }
  }

  /** The kind of an ownership entry: supplier = 1, organization = 2, user = 3. */
  datatype OwnershipType = SupplierOwnership | OrganizationOwnership | UserOwnership {
    function Value(): (v: int)
      ensures 1 <= v <= 3
    {
      match this
      case SupplierOwnership => 1
      case OrganizationOwnership => 2
      case UserOwnership => 3
    }
  }

  /** Each enumeration member has its own number. */
  lemma ValuesIdentifyMembers(a: OrganizationType, b: OrganizationType, c: OwnershipType, d: OwnershipType)
    ensures a.Value() == b.Value() ==> a == b
    ensures c.Value() == d.Value() ==> c == d
  {
  }

  /** A JavaScript value as far as enumeration objects need one. */
  datatype JsValue = Num(n: int) | Str(s: string) | Undefined

  /** A JavaScript object: its own keys in `Object.keys` order, and its properties. */
  datatype JsObject = JsObject(keys: seq<string>, props: map<string, JsValue>) {
    /** Property access `e[key]`, `undefined` for a missing key. */
    function Get(key: string): JsValue
    {
      if key in props then props[key] else Undefined
    }
  }

  /** The values `getValuesFromEnum` lists: one per key, in key order. */
  function EnumValues(e: JsObject): (vs: seq<JsValue>)
  {
    seq(|e.keys|, i requires 0 <= i < |e.keys| => e.Get(e.keys[i]))
  }

  /** `EnumHelper.getValuesFromEnum`: walks the keys and pushes each key's value. */
  method GetValuesFromEnum(e: JsObject) returns (enumValues: seq<JsValue>)
    ensures |enumValues| == |e.keys|
    ensures forall i :: 0 <= i < |e.keys| ==> enumValues[i] == e.Get(e.keys[i])
    ensures enumValues == EnumValues(e)
  {
    var keys := e.keys;
    enumValues := [];
    var i := 0;
    while i < |keys|
      invariant 0 <= i <= |keys|
      invariant |enumValues| == i
      invariant forall j :: 0 <= j < i ==> enumValues[j] == e.Get(keys[j])
    {
      enumValues := enumValues + [e.Get(keys[i])];
      i := i + 1;
    }
  }

  /**
   * The object the TypeScript compiler emits for `OrganizationType`: every name maps to
   * its number and every number (as a key) maps back to its name. `Object.keys` lists
   * integer-like keys first, in ascending order, then the names in declaration order.
   */
  function OrganizationTypeObject(): JsObject
  {
    var names := ["system", "guest", "supplier"];
    JsObject(
      [IdText(1), IdText(2), IdText(3)] + names,
      map[IdText(1) := Str("system"), IdText(2) := Str("guest"), IdText(3) := Str("supplier"),
          "system" := Num(1), "guest" := Num(2), "supplier" := Num(3)])
  }

  /** The compiled `OwnershipType` object, laid out as `OrganizationTypeObject`. */
  function OwnershipTypeObject(): JsObject
  {
    JsObject(
      [IdText(1), IdText(2), IdText(3), "supplier", "organization", "user"],
      map[IdText(1) := Str("supplier"), IdText(2) := Str("organization"), IdText(3) := Str("user"),
          "supplier" := Num(1), "organization" := Num(2), "user" := Num(3)])
  }

  /**
   * On a compiled numeric enumeration the helper lists the member names as well as the
   * numbers: six values for the three members of `OrganizationType`.
   */
  lemma OrganizationTypeValues()
    ensures EnumValues(OrganizationTypeObject())
         == [Str("system"), Str("guest"), Str("supplier"), Num(1), Num(2), Num(3)]
    ensures forall t: OrganizationType :: Num(t.Value()) in EnumValues(OrganizationTypeObject())
  {
    var e := OrganizationTypeObject();
    assert e.keys[0] == "1" && e.keys[1] == "2" && e.keys[2] == "3";
  }

  /** Likewise for `OwnershipType`: its three names followed by 1, 2 and 3. */
  lemma OwnershipTypeValues()
    ensures EnumValues(OwnershipTypeObject())
         == [Str("supplier"), Str("organization"), Str("user"), Num(1), Num(2), Num(3)]
    ensures forall t: OwnershipType :: Num(t.Value()) in EnumValues(OwnershipTypeObject())
  {
    var e := OwnershipTypeObject();
    assert e.keys[0] == "1" && e.keys[1] == "2" && e.keys[2] == "3";
  }
}

=== FILE: http.dfy ===
/**
 * Requests and responses as values. A response is a status and a body; the body variants
 * are the JSON shapes the core sends. A thrown error is named by a `Fault`.
 */
module Http {
  import opened Wrappers
  import opened Identifiers
  import opened Models

  /**
   * A request: URL, method, the body, query and header fields the core reads, and the
   * slots where middleware keeps decoded tokens (`request[REQUEST_TOKEN_LOCATION]`).
   */
  datatype Request = Request(
    url: string,
    verb: string,         // the HTTP method
    body: map<string, string>,
    query: map<string, string>,
    headers: map<string, string>,
    decoded: map<string, TokenPayload>)

  /** The errors the core can raise, by kind. */
  datatype Fault =
    | NullDereference        // a property read on a null lookup result (TypeError)
    | MissingHashInput       // bcrypt given an undefined argument
    | CastError              // text that is not an id given to a lookup by id
    | DuplicateKey           // a unique index refused a save
    | ValidationError        // a required field missing on save
    | HeadersSent            // a write to a response that has already been sent
    | JsonSyntaxError        // JSON.parse given text that is not JSON
    | Raised(message: string) // an Error thrown explicitly with this message

  /** The `description` of an authentication failure: a message, or the error that was caught. */
  datatype Detail = Text(text: string) | Thrown(fault: Fault)

  datatype Body =
    | AuthFailure(message: string, description: Detail)
    | ApiError(message: string, status: int, errorCode: Option<string>, exception: Option<Fault>)
    | HandledError(message: string, status: int, url: string, verb: string, stack: string,
                   requestBody: map<string, string>)
    | TokenIssued(authenticated: bool, message: string, expiresAt: int, token: string, decoded: TokenPayload)
    | UpgradeAccepted(organizationId: Id)
    | UserBody(id: Id, user: User)
    | ApiInfo

  datatype Response = Response(status: int, body: Body)

  /** What a middleware does with a request: hand it on (`next()`) or answer it. */
  datatype Outcome = Next | Respond(response: Response)

  /** A JavaScript string field is truthy when present and non-empty. */
  predicate Truthy(s: Option<string>)
  {
    s.Some? && s.value != ""
  }

  function Field(m: map<string, string>, key: string): Option<string>
  {
    if key in m then Some(m[key]) else None
  }

  /**
   * `request.body.token || request.query.token || request.headers['x-access-token']`:
   * the first truthy of the three, or nothing.
   */
  function TokenFromRequest(req: Request): (t: Option<string>)
    ensures t.Some? <==> Truthy(Field(req.body, "token")) || Truthy(Field(req.query, "token"))
                         || Truthy(Field(req.headers, "x-access-token"))
    ensures t.Some? ==> t.value != ""
    ensures Truthy(Field(req.body, "token")) ==> t == Field(req.body, "token")
    ensures !Truthy(Field(req.body, "token")) && Truthy(Field(req.query, "token")) ==> t == Field(req.query, "token")
    ensures !Truthy(Field(req.body, "token")) && !Truthy(Field(req.query, "token")) ==> t == Field(req.headers, "x-access-token") || t == None
  {
    var b := Field(req.body, "token");
    var q := Field(req.query, "token");
    var h := Field(req.headers, "x-access-token");
    if Truthy(b) then b else if Truthy(q) then q else if Truthy(h) then h else None
  }

  /**
   * The authentication-failure response: the given status and
   * `{message: 'Authentication Failed', description}`.
   */
  function SendAuthFailure(status: int, description: Detail): (r: Response)
    ensures r.status == status && r.body == AuthFailure("Authentication Failed", description)
  {
    Response(status, AuthFailure("Authentication Failed", description))
  }
}

=== FILE: identifiers.dfy ===
/**
 * Document identifiers. The store hands out ids as natural numbers in increasing order,
 * where MongoDB hands out 24-hex-digit ObjectIds; the numbers stand for those ids.
 * `IdText` is the text form an id takes in URLs, token claims and request bodies, and
 * `ParseId` the cast back from text. Its failure on text that is not a decimal numeral
 * stands for Mongoose's CastError on text that is not an ObjectId; which texts fail
 * differs between the two.
 */
module Identifiers {
  import opened Wrappers

  type Id = nat

  function DigitChar(d: nat): (c: char)
    requires d < 10
    ensures '0' <= c <= '9'
  {
    (48 + d) as char
  }

  function DigitValue(c: char): (r: Option<nat>)
    ensures r.Some? <==> '0' <= c <= '9'
    ensures r.Some? ==> r.value < 10 && DigitChar(r.value) == c
  {
    if '0' <= c <= '9' then Some(c as int - 48) else None
  }

  /** The canonical text of an id: its decimal digits, most significant first. */
  function IdText(n: Id): (s: string)
    ensures |s| > 0
    ensures forall i :: 0 <= i < |s| ==> '0' <= s[i] <= '9'
  {
    if n < 10 then [DigitChar(n)] else IdText(n / 10) + [DigitChar(n % 10)]
  }

  /** The cast from text to an id; `None` when the text is not made of digits. */
  function ParseId(s: string): (r: Option<Id>)
    ensures r.Some? ==> |s| > 0
    ensures r.Some? <==> |s| > 0 && forall i :: 0 <= i < |s| ==> '0' <= s[i] <= '9'
    decreases |s|
  {
    if |s| == 0 then None
    else
      var last := DigitValue(s[|s| - 1]);
      if last.None? then None
      else if |s| == 1 then last
      else
        match ParseId(s[..|s| - 1])
        case None => None
        case Some(p) => Some(p * 10 + last.value)
  }

  /** Reading back the text of an id gives the id: the cast undoes the rendering. */
  lemma {:induction false} ParseIdText(n: Id)
    ensures ParseId(IdText(n)) == Some(n)
  {
    if n >= 10 {
      ParseIdText(n / 10);
      var s := IdText(n / 10);
      assert (s + [DigitChar(n % 10)])[..|s|] == s;
    }
  }

  /** Distinct ids have distinct texts, so an id's text identifies the document. */
  lemma IdTextInjective(a: Id, b: Id)
    ensures IdText(a) == IdText(b) ==> a == b
  {
    ParseIdText(a);
    ParseIdText(b);
  }
}

=== FILE: models.dfy ===
/**
 * The documents of the identity store (server/models/user.ts, server/models/organization.ts,
 * and the role, permission, email-verification and token-payload records the controllers
 * build), with the schema defaults and the unique indexes as predicates over a collection.
 */
module Models {
  import opened Wrappers
  import opened Identifiers
  import opened Enumerations

  /** An ownership entry of an organization; the schema gives it no id of its own. */
  datatype Ownership = Ownership(ownerId: string, ownershipType: OwnershipType)

  /**
   * A user document. `password` holds the bcrypt hash; it is `None` in documents read
   * with the default selection, which leaves the password out. `roles` and
   * `organizationId` are references into the role and organization collections.
   */
  datatype User = User(
    firstName: Option<string>,
    lastName: Option<string>,
    email: string,
    password: Option<string>,
    isTokenExpired: bool,   // revokes token renewal when set
    isEmailVerified: bool,
    isActive: bool,
    href: Option<string>,
    organizationId: Option<Id>,
    roles: seq<Id>)

  /** An organization document; `users` are references into the user collection. */
  datatype Organization = Organization(
    name: string,
    orgType: OrganizationType,
    isSystem: bool,
    users: seq<Id>,
    ownerships: seq<Ownership>,
    href: Option<string>)

  /** A role document; `permissions` are references into the permission collection. */
  datatype Role = Role(name: string, description: string, permissions: seq<Id>, href: Option<string>)

  datatype Permission = Permission(name: string, value: string, description: string, href: Option<string>)

  /** The record registration saves so that the address can be confirmed later. */
  datatype EmailVerification = EmailVerification(isVerified: bool, userId: Id, validityLength: string)

  /**
   * The claims of an issued token: the user's id and organization id as text, the names
   * (not the ids) of the user's roles, and the soft deadline `expiresAt` (clock seconds).
   */
  datatype TokenPayload = TokenPayload(
    userId: string,
    organizationId: Option<string>,
    roles: seq<string>,
    expiresAt: int)

  /**
   * A user built from request fields, every other field taking its schema default:
   * `isTokenExpired` and `isEmailVerified` false, `isActive` true, no roles, no organization.
   */
  function NewUser(email: string, password: Option<string>, firstName: Option<string>, lastName: Option<string>): (u: User)
    ensures !u.isTokenExpired && !u.isEmailVerified && u.isActive
    ensures u.roles == [] && u.organizationId == None && u.href == None
    ensures u.email == email && u.password == password
    ensures u.firstName == firstName && u.lastName == lastName
  {
    User(firstName, lastName, email, password, false, false, true, None, None, [])
  }

  /** What a query with the default selection returns: the document without its password. */
  function DefaultSelection(u: User): (r: User)
    ensures r.password == None
    ensures r.(password := u.password) == u
  {
    u.(password := None)
  }

  /** Some stored user has this email. */
  predicate EmailTaken(users: map<Id, User>, email: string)
  {
    exists k :: k in users && users[k].email == email
  }

  /** Some stored organization has this name. */
  predicate OrgNameTaken(organizations: map<Id, Organization>, name: string)
  {
    exists k :: k in organizations && organizations[k].name == name
  }

  /** The unique index on `email`: no two users share an address. */
  ghost predicate UniqueEmails(users: map<Id, User>)
  {
    forall a, b :: a in users && b in users && users[a].email == users[b].email ==> a == b
  }

  /** The unique index on `name`: no two organizations share a name. */
  ghost predicate UniqueOrgNames(organizations: map<Id, Organization>)
  {
    forall a, b :: a in organizations && b in organizations && organizations[a].name == organizations[b].name ==> a == b
  }

  /** `password` is a required field: every stored user has one. */
  ghost predicate PasswordsStored(users: map<Id, User>)
  {
    forall k :: k in users ==> users[k].password.Some?
  }

  /**
   * Adding a user whose email is not taken keeps emails unique, and no other addition
   * can: the unique index is exactly the "not taken" check.
   */
  lemma AddUserKeepsUniqueEmails(users: map<Id, User>, k: Id, u: User)
    requires UniqueEmails(users) && k !in users
    ensures UniqueEmails(users[k := u]) <==> !EmailTaken(users, u.email)
  {
    if EmailTaken(users, u.email) {
      var j :| j in users && users[j].email == u.email;
      assert users[k := u][j].email == users[k := u][k].email && j != k;
    }
  }

  /** The same for organization names. */
  lemma AddOrganizationKeepsUniqueNames(organizations: map<Id, Organization>, k: Id, o: Organization)
    requires UniqueOrgNames(organizations) && k !in organizations
    ensures UniqueOrgNames(organizations[k := o]) <==> !OrgNameTaken(organizations, o.name)
  {
    if OrgNameTaken(organizations, o.name) {
      var j :| j in organizations && organizations[j].name == o.name;
      assert organizations[k := o][j].name == organizations[k := o][k].name && j != k;
    }
  }
}

=== FILE: registration.dfy ===
/**
 * Self-registration (src/controllers/registration.controller.ts): a new user joins the
 * guest organization with the guest role, with a hashed password and an unconfirmed
 * email, and an email-verification record is saved for it.
 *
 * A response can be written once; a second write raises, and a raise inside the
 * handler's own error path escapes the handler altogether. `Register` models the handler
 * as written, `RegisterFixed` with the early return the email check evidently intends.
 */
module Registration {
  import opened Wrappers
  import opened Identifiers
  import opened Models
  import opened Http
  import opened Store
  import opened Repositories
  import opened ApiErrorHandler
  import Constants

  /**
   * The request body: the two fields the handler itself reads, and every other field the
   * client sent. The whole body goes to the user repository's `createFromBody`.
   */
  datatype RegistrationBody = RegistrationBody(email: string, password: Option<string>, rest: map<string, string>)

  const EMAIL_EXISTS := "That user email already exists"
  const PASSWORD_RULE := "Password must be supplied, and be at least 6 chars"

  /**
   * The password check, refusing `!password || password.length < 6`: an empty password is
   * refused like a missing one, so what passes is a present password of six characters or more.
   */
  function PasswordAcceptable(password: Option<string>): (ok: bool)
    ensures ok <==> password.Some? && |password.value| >= 6
    ensures ok ==> Truthy(password)
  {
    !(!Truthy(password) || |password.value| < 6)
  }

  /** Writing a response: allowed once; a second write raises. */
  function Send(sent: seq<Response>, r: Response): (s: Result<seq<Response>, Fault>)
    ensures s.Ok? <==> sent == []
    ensures s.Ok? ==> s.value == [r]
    ensures s.Err? ==> s.error == HeadersSent
  {
    if sent == [] then Ok([r]) else Err(HeadersSent)
  }

  /** The id of the role named "guest", when there is one. */
  function GuestRoleId(roles: map<Id, Role>): (r: Option<Id>)
    ensures r.Some? ==> r.value in roles && roles[r.value].name == "guest"
    ensures r.None? <==> forall k :: k in roles ==> roles[k].name != "guest"
  {
    var role := GetRoleByName(roles, "guest");
    if role.Some? then Some(role.value.id) else None
  }

  /**
   * The user registration saves, from the document `createFromBody` built: the password
   * hashed, the guest organization, the guest role pushed after whatever roles the body
   * supplied, email unconfirmed; every other field as `createFromBody` left it.
   */
  function RegisteredUser(created: User, hash: (string, nat) -> string, guestOrg: Id,
                          guestRole: Option<Id>): (u: User)
    requires created.password.Some?
    ensures u.password == Some(hash(created.password.value, Constants.SALT_ROUNDS))
    ensures u.organizationId == Some(guestOrg) && !u.isEmailVerified
    ensures u.roles == created.roles + (if guestRole.Some? then [guestRole.value] else [])
    ensures u.(password := created.password, organizationId := created.organizationId,
               roles := created.roles, isEmailVerified := created.isEmailVerified) == created
  {
    created.(password := Some(hash(created.password.value, Constants.SALT_ROUNDS)),
             organizationId := Some(guestOrg),
             roles := created.roles + if guestRole.Some? then [guestRole.value] else [],
             isEmailVerified := false)
  }

  /**
   * What the steps after the checks come to, given the document `createFromBody` built:
   * the error they raise, or the user they save. The password is hashed first (bcrypt
   * raises on an undefined one), then the guest organization's id is read (raising when
   * there is none), then the save refuses an email already in use.
   */
  function GuestUserFor(users: map<Id, User>, organizations: map<Id, Organization>, roles: map<Id, Role>,
                        created: User, hash: (string, nat) -> string): (r: Result<User, Fault>)
    ensures created.password.None? <==> r == Err(MissingHashInput)
    ensures created.password.Some? && GetGuestOrganization(organizations).None? ==> r == Err(NullDereference)
    ensures created.password.Some? && GetGuestOrganization(organizations).Some? && EmailTaken(users, created.email) ==>
              r == Err(DuplicateKey)
    ensures r.Ok? <==> created.password.Some? && GetGuestOrganization(organizations).Some? &&
                       !EmailTaken(users, created.email)
    ensures r.Ok? ==> r.value.email == created.email && r.value.password.Some? &&
                      r.value.organizationId == Some(GetGuestOrganization(organizations).value.id)
    ensures r.Ok? ==> r.value == RegisteredUser(created, hash, GetGuestOrganization(organizations).value.id,
                                                GuestRoleId(roles))
  {
    if created.password.None? then Err(MissingHashInput)
    else
      var guestOrg := GetGuestOrganization(organizations);
      if guestOrg.None? then Err(NullDereference)
      else if FindUserByEmail(users, created.email).Some? then Err(DuplicateKey)
      else Ok(RegisteredUser(created, hash, guestOrg.value.id, GuestRoleId(roles)))
  }

  /**
   * The steps after the checks: look up the guest organization and role, hash the
   * password of the document `createFromBody` built, save the user, save its verification
   * record and answer 201 with the user, password blanked. When a step raises, nothing is
   * stored.
   */
  method CreateGuestUser(store: Store, created: User, hash: (string, nat) -> string)
    returns (r: Result<Response, Fault>)
    requires store.Valid()
    modifies store
    ensures store.Valid()
    ensures var g := GuestUserFor(old(store.users), old(store.organizations), old(store.roles), created, hash);
            && (r.Err? <==> g.Err?)
            && (r.Err? ==> r.error == g.error && store.users == old(store.users)
                           && store.verifications == old(store.verifications) && store.nextId == old(store.nextId))
            && (r.Ok? ==>
                  var id := old(store.nextId);
                  && store.users == old(store.users)[id := g.value]
                  && store.verifications == old(store.verifications)[id + 1 := EmailVerification(false, id, "1week")]
                  && store.nextId == old(store.nextId) + 2
                  && r.value == Response(201, UserBody(id, g.value.(password := Some("")))))
    ensures store.organizations == old(store.organizations) && store.roles == old(store.roles)
    ensures store.permissions == old(store.permissions)
  {
    var guestOrg := GetGuestOrganization(store.organizations);
    var guestRole := GuestRoleId(store.roles);
    if created.password.None? {
      return Err(MissingHashInput);
    }
    if guestOrg.None? {
      return Err(NullDereference);
    }
    var user := RegisteredUser(created, hash, guestOrg.value.id, guestRole);
    var saved := store.InsertUser(user);
    if saved.Err? {
      return Err(saved.error);
    }
    var verification := store.InsertVerification(EmailVerification(false, saved.value, "1week"));
    return Ok(Response(201, UserBody(saved.value, user.(password := Some("")))));
  }

  /**
   * `register` as written; `fromBody` is the user repository's `createFromBody`. A taken
   * email is answered 400, but the handler goes on: its next write (the password refusal,
   * the 201, or the failure answer for what the later steps raise) meets a response
   * already sent, and that raise, in the handler's error path, escapes it. The later
   * steps still run, so a user is saved whenever the password passes and they succeed,
   * taken email or not. Otherwise: a bad password is answered 400, a raise 401, success 201.
   */
  method Register(store: Store, body: RegistrationBody, fromBody: RegistrationBody -> User,
                  hash: (string, nat) -> string)
    returns (sent: seq<Response>, escaped: Option<Fault>)
    requires store.Valid()
    modifies store
    ensures store.Valid()
    ensures |sent| == 1
    ensures EmailTaken(old(store.users), body.email) ==>
              sent == [SendError(EMAIL_EXISTS, 400, Some(Constants.EMAIL_TAKEN), None)] && escaped == Some(HeadersSent)
    ensures !EmailTaken(old(store.users), body.email) ==> escaped == None
    ensures !EmailTaken(old(store.users), body.email) && !PasswordAcceptable(body.password) ==>
              sent == [SendError(PASSWORD_RULE, 400, Some(Constants.PASSWORD_FAILED_CHECKS), None)]
    ensures var g := GuestUserFor(old(store.users), old(store.organizations), old(store.roles), fromBody(body), hash);
            && (!EmailTaken(old(store.users), body.email) && PasswordAcceptable(body.password) && g.Err? ==>
                  sent == [SendAuthFailure(401, Thrown(g.error))])
            && (!EmailTaken(old(store.users), body.email) && PasswordAcceptable(body.password) && g.Ok? ==>
                  sent == [Response(201, UserBody(old(store.nextId), g.value.(password := Some(""))))])
            && (PasswordAcceptable(body.password) && g.Ok? ==>
                  && store.users == old(store.users)[old(store.nextId) := g.value]
                  && store.verifications ==
                     old(store.verifications)[old(store.nextId) + 1 := EmailVerification(false, old(store.nextId), "1week")]
                  && store.nextId == old(store.nextId) + 2)
            && (!(PasswordAcceptable(body.password) && g.Ok?) ==>
                  store.users == old(store.users) && store.verifications == old(store.verifications)
                  && store.nextId == old(store.nextId))
    ensures store.organizations == old(store.organizations) && store.roles == old(store.roles)
    ensures store.permissions == old(store.permissions)
  {
    sent, escaped := [], None;
    var thrown: Option<Fault> := None;
    if FindUserByEmail(store.users, body.email).Some? {
      sent := [SendError(EMAIL_EXISTS, 400, Some(Constants.EMAIL_TAKEN), None)];
    }
    if !PasswordAcceptable(body.password) {
      var s := Send(sent, SendError(PASSWORD_RULE, 400, Some(Constants.PASSWORD_FAILED_CHECKS), None));
      match s {
        case Ok(written) => sent := written;
        case Err(fault) => thrown := Some(fault);
      }
    } else {
      var created := CreateGuestUser(store, fromBody(body), hash);
      match created {
        case Ok(response) =>
          var s := Send(sent, response);
          match s {
            case Ok(written) => sent := written;
            case Err(fault) => thrown := Some(fault);
          }
        case Err(fault) => thrown := Some(fault);
      }
    }
    // The catch block: answer 401 with the error; a raise here leaves the handler.
    if thrown.Some? {
      var s := Send(sent, SendAuthFailure(401, Thrown(thrown.value)));
      match s {
        case Ok(written) => sent := written;
        case Err(fault) => escaped := Some(fault);
      }
    }
  }

  /**
   * `register` with the early return after the email check: every request is answered
   * exactly once, nothing escapes the handler, and nothing is stored for a taken email.
   */
  method RegisterFixed(store: Store, body: RegistrationBody, fromBody: RegistrationBody -> User,
                       hash: (string, nat) -> string)
    returns (sent: seq<Response>, escaped: Option<Fault>)
    requires store.Valid()
    modifies store
    ensures store.Valid()
    ensures |sent| == 1 && escaped == None
    ensures EmailTaken(old(store.users), body.email) ==>
              sent == [SendError(EMAIL_EXISTS, 400, Some(Constants.EMAIL_TAKEN), None)]
    ensures !EmailTaken(old(store.users), body.email) && !PasswordAcceptable(body.password) ==>
              sent == [SendError(PASSWORD_RULE, 400, Some(Constants.PASSWORD_FAILED_CHECKS), None)]
    ensures var g := GuestUserFor(old(store.users), old(store.organizations), old(store.roles), fromBody(body), hash);
            && (!EmailTaken(old(store.users), body.email) && PasswordAcceptable(body.password) && g.Err? ==>
                  sent == [SendAuthFailure(401, Thrown(g.error))])
            && (!EmailTaken(old(store.users), body.email) && PasswordAcceptable(body.password) && g.Ok? ==>
                  && sent == [Response(201, UserBody(old(store.nextId), g.value.(password := Some(""))))]
                  && store.users == old(store.users)[old(store.nextId) := g.value]
                  && store.verifications ==
                     old(store.verifications)[old(store.nextId) + 1 := EmailVerification(false, old(store.nextId), "1week")]
                  && store.nextId == old(store.nextId) + 2)
            && (!(!EmailTaken(old(store.users), body.email) && PasswordAcceptable(body.password) && g.Ok?) ==>
                  store.users == old(store.users) && store.verifications == old(store.verifications)
                  && store.nextId == old(store.nextId))
    ensures store.organizations == old(store.organizations) && store.roles == old(store.roles)
    ensures store.permissions == old(store.permissions)
  {
    sent, escaped := [], None;
    if FindUserByEmail(store.users, body.email).Some? {
      sent := [SendError(EMAIL_EXISTS, 400, Some(Constants.EMAIL_TAKEN), None)];
      return;
    }
    if !PasswordAcceptable(body.password) {
      sent := [SendError(PASSWORD_RULE, 400, Some(Constants.PASSWORD_FAILED_CHECKS), None)];
      return;
    }
    var created := CreateGuestUser(store, fromBody(body), hash);
    match created {
      case Ok(response) => sent := [response];
      case Err(fault) => sent := [SendAuthFailure(401, Thrown(fault))];
    }
  }

  /**
   * The input that shows the missing return: registering an address already in use, with
   * an acceptable password, answers 400 and then lets a raise escape the handler, whatever
   * `createFromBody` makes of the body.
   */
  method TakenEmailEscapesRegister(fromBody: RegistrationBody -> User, hash: (string, nat) -> string)
    returns (sent: seq<Response>, escaped: Option<Fault>)
    ensures sent == [SendError(EMAIL_EXISTS, 400, Some(Constants.EMAIL_TAKEN), None)]
    ensures escaped == Some(HeadersSent)
  {
    var store := new Store();
    var first := store.InsertUser(NewUser("user@example.com", Some("stored-hash"), None, None));
    sent, escaped := Register(store, RegistrationBody("user@example.com", Some("secret-password"), map[]), fromBody, hash);
  }
}

=== FILE: repositories.dfy ===
/**
 * The repository queries the controllers use: lookups by email, name and id over the
 * store's collections (src/repositories/concrete/user.repository.ts and the organization
 * repositories of both generations), and the population of referenced documents.
 */
module Repositories {
  import opened Wrappers
  import opened Identifiers
  import opened Models
  import opened Http
  import opened Store

  /** A document read from a collection, with its id. */
  datatype Found<T> = Found(id: Id, doc: T)

  /** A role with its permission references replaced by the permission documents. */
  datatype PopulatedRole = PopulatedRole(id: Id, role: Role, permissions: seq<Permission>)

  /** A user document with its role references populated. */
  datatype LoadedUser = LoadedUser(id: Id, user: User, roles: seq<PopulatedRole>)

  /**
   * Populating an array of references: each id is replaced by its document, in order,
   * and references to documents that no longer exist are dropped.
   */
  function Populate<T>(m: map<Id, T>, ids: seq<Id>): (r: seq<Found<T>>)
    ensures |r| <= |ids|
    ensures forall i :: 0 <= i < |r| ==> r[i].id in m && r[i].doc == m[r[i].id] && r[i].id in ids
    ensures (forall i :: 0 <= i < |ids| ==> ids[i] in m) ==>
              |r| == |ids| && forall i :: 0 <= i < |ids| ==> r[i] == Found(ids[i], m[ids[i]])
  {
    if ids == [] then []
    else
      var rest := Populate(m, ids[1..]);
      if ids[0] in m then [Found(ids[0], m[ids[0]])] + rest else rest
  }

  function Docs<T>(found: seq<Found<T>>): (r: seq<T>)
    ensures |r| == |found| && forall i :: 0 <= i < |found| ==> r[i] == found[i].doc
  {
    seq(|found|, i requires 0 <= i < |found| => found[i].doc)
  }

  /** `populate({path: 'roles', populate: {path: 'permissions'}})`. */
  function PopulateRoles(roles: map<Id, Role>, permissions: map<Id, Permission>, ids: seq<Id>): (r: seq<PopulatedRole>)
    ensures var found := Populate(roles, ids);
            |r| == |found| &&
            forall i :: 0 <= i < |r| ==>
              r[i].id == found[i].id && r[i].role == found[i].doc &&
              r[i].permissions == Docs(Populate(permissions, found[i].doc.permissions))
  {
    var found := Populate(roles, ids);
    seq(|found|, i requires 0 <= i < |found| =>
      PopulatedRole(found[i].id, found[i].doc, Docs(Populate(permissions, found[i].doc.permissions))))
  }

  /** `findUserByEmail`: the first user with this email, read without its password. */
  function FindUserByEmail(users: map<Id, User>, email: string): (r: Option<Found<User>>)
    ensures r.None? <==> !EmailTaken(users, email)
    ensures r.Some? ==> r.value.id in users && users[r.value.id].email == email
    ensures r.Some? ==> r.value.doc == DefaultSelection(users[r.value.id])
  {
    match FindOne(users, (u: User) => u.email == email)
    case None => None
    case Some(k) => Some(Found(k, DefaultSelection(users[k])))
  }

  /**
   * `getUserForPasswordCheck`: the same user as `findUserByEmail`, but with its password
   * selected and its roles (and their permissions) populated.
   */
  function GetUserForPasswordCheck(users: map<Id, User>, roles: map<Id, Role>, permissions: map<Id, Permission>,
                                   email: string): (r: Option<LoadedUser>)
    ensures r.None? <==> FindUserByEmail(users, email).None?
    ensures r.Some? ==> r.value.id == FindUserByEmail(users, email).value.id
    ensures r.Some? ==> r.value.user == users[r.value.id]
    ensures r.Some? ==> r.value.roles == PopulateRoles(roles, permissions, users[r.value.id].roles)
  {
    match FindOne(users, (u: User) => u.email == email)
    case None => None
    case Some(k) => Some(LoadedUser(k, users[k], PopulateRoles(roles, permissions, users[k].roles)))
  }

  /**
   * With emails unique, a lookup by email finds the one user holding it, and nothing
   * else: the result does not depend on the collection's order.
   */
  lemma FindUserByEmailUnique(users: map<Id, User>, email: string, k: Id)
    requires UniqueEmails(users)
    requires k in users && users[k].email == email
    ensures FindUserByEmail(users, email) == Some(Found(k, DefaultSelection(users[k])))
  {
  }

  /**
   * `findById(id)`: text that is not an id raises a cast error; an id with no document
   * gives nothing.
   */
  function FindById<T>(m: map<Id, T>, id: string): (r: Result<Option<Found<T>>, Fault>)
    ensures r.Err? <==> ParseId(id).None?
    ensures r.Err? ==> r.error == CastError
    ensures r.Ok? && r.value.Some? <==> ParseId(id).Some? && ParseId(id).value in m
    ensures r.Ok? && r.value.Some? ==> r.value.value == Found(ParseId(id).value, m[ParseId(id).value])
  {
    match ParseId(id)
    case None => Err(CastError)
    case Some(k) => if k in m then Ok(Some(Found(k, m[k]))) else Ok(None)
  }

  /**
   * `single(id)` on the user repository: the user by id, with the default selection and
   * its roles populated.
   */
  function SingleUser(users: map<Id, User>, roles: map<Id, Role>, permissions: map<Id, Permission>,
                      id: string): (r: Result<Option<LoadedUser>, Fault>)
    ensures r.Err? <==> ParseId(id).None?
    ensures r.Err? ==> r.error == CastError
    ensures r.Ok? && r.value.Some? <==> ParseId(id).Some? && ParseId(id).value in users
    ensures r.Ok? && r.value.Some? ==>
              var k := ParseId(id).value;
              r.value.value == LoadedUser(k, DefaultSelection(users[k]), PopulateRoles(roles, permissions, users[k].roles))
  {
    match FindById(users, id)
    case Err(e) => Err(e)
    case Ok(None) => Ok(None)
    case Ok(Some(f)) => Ok(Some(LoadedUser(f.id, DefaultSelection(f.doc), PopulateRoles(roles, permissions, f.doc.roles))))
  }

  /** Looking up a user by the text of its own id always finds it. */
  lemma SingleUserFindsOwnId(users: map<Id, User>, roles: map<Id, Role>, permissions: map<Id, Permission>, k: Id)
    requires k in users
    ensures SingleUser(users, roles, permissions, IdText(k)) ==
            Ok(Some(LoadedUser(k, DefaultSelection(users[k]), PopulateRoles(roles, permissions, users[k].roles))))
  {
    ParseIdText(k);
  }

  /** A stored user with a different password, everything else kept. */
  function WithPassword(u: User, hashedPassword: string): (r: User)
    ensures r.password == Some(hashedPassword) && r.email == u.email
    ensures r.(password := u.password) == u
  {
    u.(password := Some(hashedPassword))
  }

  /**
   * `updatePassword(id, hashedPassword)`: loads the user by id with its password, sets the
   * new hash and saves it. Text that is not an id raises a cast error and an unknown id a
   * null dereference; otherwise the save succeeds and only that user's password changes.
   */
  method UpdatePassword(store: Store, id: string, hashedPassword: string) returns (r: Result<User, Fault>)
    requires store.Valid()
    modifies store
    ensures store.Valid()
    ensures ParseId(id).None? ==> r == Err(CastError)
    ensures ParseId(id).Some? && ParseId(id).value !in old(store.users) ==> r == Err(NullDereference)
    ensures r.Ok? <==> ParseId(id).Some? && ParseId(id).value in old(store.users)
    ensures r.Ok? ==> var k := ParseId(id).value;
                      store.users == old(store.users)[k := WithPassword(old(store.users)[k], hashedPassword)] &&
                      r.value == store.users[k]
    ensures r.Err? ==> store.users == old(store.users)
    ensures store.nextId == old(store.nextId) && store.organizations == old(store.organizations)
    ensures store.roles == old(store.roles) && store.permissions == old(store.permissions)
    ensures store.verifications == old(store.verifications)
  {
    var found := FindById(store.users, id);
    match found {
      case Err(e) =>
        return Err(e);
      case Ok(None) =>
        return Err(NullDereference);
      case Ok(Some(f)) =>
        var user := WithPassword(f.doc, hashedPassword);
        var saved := store.SaveUser(f.id, user);
        return Ok(user);
    }
  }

  /**
   * After `updatePassword`, the password check for the user's email sees the new hash:
   * the changed user is still the one and only holder of the address.
   */
  lemma {:induction false} PasswordCheckSeesUpdate(users: map<Id, User>, roles: map<Id, Role>,
                                                   permissions: map<Id, Permission>, k: Id, hashedPassword: string)
    requires UniqueEmails(users) && k in users
    ensures var updated := users[k := WithPassword(users[k], hashedPassword)];
            var r := GetUserForPasswordCheck(updated, roles, permissions, users[k].email);
            r.Some? && r.value.id == k && r.value.user.password == Some(hashedPassword)
  {
    var updated := users[k := WithPassword(users[k], hashedPassword)];
    forall a, b | a in updated && b in updated && updated[a].email == updated[b].email
      ensures a == b
    {
      assert users[a].email == updated[a].email && users[b].email == updated[b].email;
    }
    FindUserByEmailUnique(updated, users[k].email, k);
  }

  /** `getOrgByName`: the first organization with this name, or nothing. */
  function GetOrgByName(organizations: map<Id, Organization>, name: string): (r: Option<Found<Organization>>)
    ensures r.None? <==> !OrgNameTaken(organizations, name)
    ensures r.Some? ==> r.value.id in organizations && r.value.doc == organizations[r.value.id]
    ensures r.Some? ==> r.value.doc.name == name
    ensures r.Some? ==> forall j :: j in organizations && organizations[j].name == name ==> r.value.id <= j
  {
    match FindOne(organizations, (o: Organization) => o.name == name)
    case None => None
    case Some(k) => Some(Found(k, organizations[k]))
  }

  /** With names unique, the lookup by name finds the one organization holding it. */
  lemma GetOrgByNameUnique(organizations: map<Id, Organization>, name: string, k: Id)
    requires UniqueOrgNames(organizations)
    requires k in organizations && organizations[k].name == name
    ensures GetOrgByName(organizations, name) == Some(Found(k, organizations[k]))
  {
  }

  /** `getGuestOrganization` (server generation): the organization named "guest". */
  function GetGuestOrganization(organizations: map<Id, Organization>): (r: Option<Found<Organization>>)
    ensures r.Some? ==> r.value.id in organizations && r.value.doc == organizations[r.value.id]
    ensures r.Some? ==> r.value.doc.name == "guest"
    ensures r.None? <==> !OrgNameTaken(organizations, "guest")
  {
    GetOrgByName(organizations, "guest")
  }

  /** `getSystemOrganization` (server generation): the organization named "system". */
  function GetSystemOrganization(organizations: map<Id, Organization>): (r: Option<Found<Organization>>)
    ensures r.Some? ==> r.value.id in organizations && r.value.doc == organizations[r.value.id]
    ensures r.Some? ==> r.value.doc.name == "system"
    ensures r.None? <==> !OrgNameTaken(organizations, "system")
  {
    GetOrgByName(organizations, "system")
  }

  /** `getGuestOrganization` (earlier generation): the same query written out inline. */
  function LegacyGetGuestOrganization(organizations: map<Id, Organization>): (r: Option<Found<Organization>>)
    ensures r.Some? ==> r.value.id in organizations && r.value.doc == organizations[r.value.id]
    ensures r.Some? ==> r.value.doc.name == "guest"
    ensures r.None? <==> !OrgNameTaken(organizations, "guest")
  {
    match FindOne(organizations, (o: Organization) => o.name == "guest")
    case None => None
    case Some(k) => Some(Found(k, organizations[k]))
  }

  /** `getSystemOrganizatoin` (earlier generation, the name spelled so in the source). */
  function LegacyGetSystemOrganization(organizations: map<Id, Organization>): (r: Option<Found<Organization>>)
    ensures r.Some? ==> r.value.id in organizations && r.value.doc == organizations[r.value.id]
    ensures r.Some? ==> r.value.doc.name == "system"
    ensures r.None? <==> !OrgNameTaken(organizations, "system")
  {
    match FindOne(organizations, (o: Organization) => o.name == "system")
    case None => None
    case Some(k) => Some(Found(k, organizations[k]))
  }

  /** The two generations' guest and system lookups return the same document. */
  lemma LegacyLookupsAgree(organizations: map<Id, Organization>)
    ensures LegacyGetGuestOrganization(organizations) == GetGuestOrganization(organizations)
    ensures LegacyGetSystemOrganization(organizations) == GetSystemOrganization(organizations)
  {
  }

  /** `getRoleByName`: the first role with this name, or nothing. */
  function GetRoleByName(roles: map<Id, Role>, name: string): (r: Option<Found<Role>>)
    ensures r.Some? ==> r.value.id in roles && r.value.doc == roles[r.value.id] && r.value.doc.name == name
    ensures r.None? <==> forall k :: k in roles ==> roles[k].name != name
    ensures r.Some? ==> forall j :: j in roles && roles[j].name == name ==> r.value.id <= j
  {
    match FindOne(roles, (role: Role) => role.name == name)
    case None => None
    case Some(k) => Some(Found(k, roles[k]))
  }
}

=== FILE: server.dfy ===
/**
 * The Express application of server/server.ts, as far as requests are concerned: the
 * routers registered by `routes()` in order, each with its mount path and the gates in
 * front of it, the `/api` information handler, the catch-all that turns any other GET into
 * a 404 error, and the error handler registered last. Express tries the layers of its
 * stack in registration order; a router that has no route for a request hands it on to
 * the next layer, a gate that answers ends the walk.
 *
 * What each router serves is not part of this model; it is a parameter `serves` saying
 * whether a router has a route for a method and a path below its mount point.
 */
module Server {
  import opened Wrappers
  import opened Http
  import opened ApiErrorHandler
  import Constants
  import Authz
  import Authentication

  datatype RouterName =
    | AuthenticationRouter
    | RegistrationRouter
    | EmailVerificationPublicRouter
    | PasswordResetTokenPublicRouter
    | RestrictedUserRouter
    | RestrictedOrganizationRouter
    | EmailVerificationRouter
    | OrganizationRouter
    | UserRouter
    | RoleRouter
    | PermissionRouter
    | PasswordResetTokenRouter

  /** One `express.use(...)` call of `routes()`. */
  datatype Layer =
    | Public(mount: string, router: RouterName)
      /** The token middleware on every path that starts with `prefix`. */
    | TokenGate(prefix: string)
      /** A router mounted behind `Authz.permit(...allowed)`. */
    | Guarded(mount: string, allowed: seq<string>, router: RouterName)

  /** Where the walk through the stack ended. */
  datatype Dispatched =
    | Routed(router: RouterName, req: Request)
    | Answered(response: Response)
    | FellThrough(req: Request)

  /** Which router has a route for a method and a path below its mount point. */
  type Serves = (RouterName, string, string) -> bool

  /** A mount path applies to the path itself and to everything below it. */
  predicate MountMatches(mount: string, url: string)
  {
    url == mount || mount + "/" <= url
  }

  /** The path a mounted router sees: what follows the mount point, or "/". */
  function Below(mount: string, url: string): (rest: string)
    requires MountMatches(mount, url)
    ensures url == mount ==> rest == "/"
    ensures url != mount ==> url == mount + rest && rest[0] == '/'
  {
    if url == mount then "/"
    else
      assert url[..|mount| + 1] == mount + "/";
      url[|mount|..]
  }

  const V1_MOUNT := Constants.API + Constants.V1

  /**
   * The open routers, registered first (server/server.ts, `routes()`): each is mounted at
   * or below `/api/v1`, and the one mounted at `/api/v1` itself comes after the three
   * mounted on a path below it.
   */
  function PublicLayers(): (p: seq<Layer>)
    ensures |p| == 4
    ensures forall k :: 0 <= k < |p| ==> p[k].Public? && MountMatches(V1_MOUNT, p[k].mount)
    ensures forall k :: 0 <= k < 3 ==> p[k].mount != V1_MOUNT
    ensures p[3] == Public(V1_MOUNT, PasswordResetTokenPublicRouter)
  {
    [Public(V1_MOUNT + Constants.AUTHENTICATION, AuthenticationRouter),
     Public(V1_MOUNT + Constants.REGISTER, RegistrationRouter),
     Public(V1_MOUNT + Constants.VALIDATE_EMAIL, EmailVerificationPublicRouter),
     Public(V1_MOUNT, PasswordResetTokenPublicRouter)]
  }

  const RESTRICTED_USER_ROLES: seq<string> :=
    [Constants.ADMIN_ROLE, Constants.GUEST_ROLE, Constants.SUPPLIER_EDITOR_ROLE, Constants.PRODUCT_EDITOR_ROLE]
  const RESTRICTED_ORGANIZATION_ROLES: seq<string> :=
    [Constants.ADMIN_ROLE, Constants.SUPPLIER_EDITOR_ROLE, Constants.PRODUCT_EDITOR_ROLE]
  const ADMIN_ONLY: seq<string> := [Constants.ADMIN_ROLE]

  /** The routers behind `permit('admin')`, in registration order. */
  const ADMIN_ROUTERS: seq<RouterName> :=
    [EmailVerificationRouter, OrganizationRouter, UserRouter, RoleRouter, PermissionRouter, PasswordResetTokenRouter]

  /**
   * The routers behind the token middleware, each behind its own role gate: the restricted
   * user router, the restricted organization router, then the administrators' routers.
   */
  function GuardedLayers(): (g: seq<Layer>)
    ensures |g| == 2 + |ADMIN_ROUTERS|
    ensures forall k :: 0 <= k < |g| ==> g[k].Guarded? && g[k].mount == V1_MOUNT
    ensures g[0] == Guarded(V1_MOUNT, RESTRICTED_USER_ROLES, RestrictedUserRouter)
    ensures g[1] == Guarded(V1_MOUNT, RESTRICTED_ORGANIZATION_ROLES, RestrictedOrganizationRouter)
    ensures forall k :: 2 <= k < |g| ==> g[k].allowed == ADMIN_ONLY && g[k].router == ADMIN_ROUTERS[k - 2]
  {
    [Guarded(V1_MOUNT, RESTRICTED_USER_ROLES, RestrictedUserRouter),
     Guarded(V1_MOUNT, RESTRICTED_ORGANIZATION_ROLES, RestrictedOrganizationRouter)]
    + seq(|ADMIN_ROUTERS|, k requires 0 <= k < |ADMIN_ROUTERS| => Guarded(V1_MOUNT, ADMIN_ONLY, ADMIN_ROUTERS[k]))
  }

  /** The guarded layers, one by one, as `routes()` registers them. */
  lemma GuardedLayersInOrder()
    ensures GuardedLayers() ==
            [Guarded(V1_MOUNT, RESTRICTED_USER_ROLES, RestrictedUserRouter),
             Guarded(V1_MOUNT, RESTRICTED_ORGANIZATION_ROLES, RestrictedOrganizationRouter),
             Guarded(V1_MOUNT, ADMIN_ONLY, EmailVerificationRouter),
             Guarded(V1_MOUNT, ADMIN_ONLY, OrganizationRouter),
             Guarded(V1_MOUNT, ADMIN_ONLY, UserRouter),
             Guarded(V1_MOUNT, ADMIN_ONLY, RoleRouter),
             Guarded(V1_MOUNT, ADMIN_ONLY, PermissionRouter),
             Guarded(V1_MOUNT, ADMIN_ONLY, PasswordResetTokenRouter)]
  {
  }

  /** `'/api/' followed by anything`: the paths the token middleware is mounted on. */
  const TOKEN_GATE := TokenGate(Constants.API + "/")

  /**
   * The stack `routes()` builds: open routers, the token middleware, then the guarded
   * routers. There is one token gate; every layer before it is open, every layer after
   * it is behind a role gate.
   */
  function RouteTable(): (t: seq<Layer>)
    ensures |t| == |PublicLayers()| + 1 + |GuardedLayers()|
    ensures t[|PublicLayers()|] == TOKEN_GATE
    ensures forall k :: 0 <= k < |PublicLayers()| ==> t[k].Public?
    ensures forall k :: |PublicLayers()| < k < |t| ==> t[k].Guarded?
  {
    PublicLayers() + [TOKEN_GATE] + GuardedLayers()
  }

  /** The request as the handlers after an admitted token see it. */
  function WithToken(req: Request, payload: Models.TokenPayload): (r: Request)
    ensures r.decoded == req.decoded[Constants.REQUEST_TOKEN_LOCATION := payload]
    ensures r.url == req.url && r.verb == req.verb && r.body == req.body
  {
    req.(decoded := req.decoded[Constants.REQUEST_TOKEN_LOCATION := payload])
  }

  /**
   * Walking a request through the layers in order. A layer ends the walk by routing the
   * request or answering it; the token middleware stores the decoded token on the way.
   * A routed request went to a router of the stack, and any answer a gate gives is a
   * 401 or a 403.
   */
  function Dispatch(layers: seq<Layer>, req: Request, verify: string -> Result<Models.TokenPayload, string>,
                    serves: Serves): (d: Dispatched)
    ensures d.Routed? ==> exists i :: 0 <= i < |layers| && !layers[i].TokenGate? && layers[i].router == d.router
    ensures d.Answered? ==> d.response.status == 401 || d.response.status == 403
    ensures d.Answered? ==> exists i :: 0 <= i < |layers| && !layers[i].Public?
    ensures !d.Answered? ==> d.req.url == req.url && d.req.verb == req.verb && d.req.body == req.body
    decreases |layers|
  {
    if layers == [] then FellThrough(req)
    else
      match layers[0]
        case Public(mount, router) =>
          if MountMatches(mount, req.url) && serves(router, req.verb, Below(mount, req.url)) then Routed(router, req)
          else Dispatch(layers[1..], req, verify, serves)
        case TokenGate(prefix) =>
          if prefix <= req.url then
            (match Authentication.AuthDecision(req, verify)
             case Reject(response) => Answered(response)
             case Admit(payload) => Dispatch(layers[1..], WithToken(req, payload), verify, serves))
          else Dispatch(layers[1..], req, verify, serves)
        case Guarded(mount, allowed, router) =>
          if MountMatches(mount, req.url) then
            (match Authz.Permit(allowed, req)
             case Respond(response) => Answered(response)
             case Next =>
               if serves(router, req.verb, Below(mount, req.url)) then Routed(router, req)
               else Dispatch(layers[1..], req, verify, serves))
          else Dispatch(layers[1..], req, verify, serves)
  }

  /** Walking two stacks one after the other is walking their concatenation. */
  lemma {:induction false} DispatchAppend(a: seq<Layer>, b: seq<Layer>, req: Request,
                                          verify: string -> Result<Models.TokenPayload, string>, serves: Serves)
    ensures Dispatch(a + b, req, verify, serves) ==
            var d := Dispatch(a, req, verify, serves);
            if d.FellThrough? then Dispatch(b, d.req, verify, serves) else d
    decreases |a|
  {
    if a == [] {
      assert a + b == b;
    } else {
      assert (a + b)[0] == a[0];
      assert (a + b)[1..] == a[1..] + b;
      match a[0]
      case Public(mount, router) =>
        DispatchAppend(a[1..], b, req, verify, serves);
      case TokenGate(prefix) =>
        if prefix <= req.url {
          match Authentication.AuthDecision(req, verify)
          case Reject(_) =>
          case Admit(payload) => DispatchAppend(a[1..], b, WithToken(req, payload), verify, serves);
        } else {
          DispatchAppend(a[1..], b, req, verify, serves);
        }
      case Guarded(mount, allowed, router) =>
        DispatchAppend(a[1..], b, req, verify, serves);
    }
  }

  /**
   * Open routers never consult the token: walking them either routes the request as it
   * came or lets it through untouched, whatever the verifier would say.
   */
  lemma {:induction false} OpenLayersIgnoreToken(layers: seq<Layer>, req: Request,
                                                 verify: string -> Result<Models.TokenPayload, string>,
                                                 other: string -> Result<Models.TokenPayload, string>, serves: Serves)
    requires forall i :: 0 <= i < |layers| ==> layers[i].Public?
    ensures !Dispatch(layers, req, verify, serves).Answered?
    ensures Dispatch(layers, req, verify, serves).req == req
    ensures Dispatch(layers, req, verify, serves) == Dispatch(layers, req, other, serves)
    decreases |layers|
  {
    if layers != [] {
      OpenLayersIgnoreToken(layers[1..], req, verify, other, serves);
    }
  }

  /** Every guarded layer up to index `i` whose mount applies to the path lets the request pass. */
  predicate PassedGates(layers: seq<Layer>, i: int, req: Request)
    requires forall k :: 0 <= k < |layers| ==> layers[k].Guarded?
    requires i < |layers|
  {
    forall j :: 0 <= j <= i && MountMatches(layers[j].mount, req.url) ==> Authz.Permit(layers[j].allowed, req) == Next
  }

  /**
   * Behind the token middleware, a request routed by a guarded router passed the role
   * gate of that router and of every guarded router before it whose mount applies, and
   * reaches the router unchanged.
   */
  lemma {:induction false} GuardedRouted(layers: seq<Layer>, req: Request,
                                         verify: string -> Result<Models.TokenPayload, string>, serves: Serves)
    requires forall i :: 0 <= i < |layers| ==> layers[i].Guarded?
    ensures var d := Dispatch(layers, req, verify, serves);
            d.Routed? ==>
              && d.req == req
              && exists i :: 0 <= i < |layers| && layers[i].router == d.router
                             && MountMatches(layers[i].mount, req.url) && PassedGates(layers, i, req)
    decreases |layers|
  {
    if layers != [] {
      var d := Dispatch(layers, req, verify, serves);
      var first := layers[0];
      var passes := MountMatches(first.mount, req.url) && Authz.Permit(first.allowed, req) == Next;
      if d.Routed? && !(passes && serves(first.router, req.verb, Below(first.mount, req.url))) {
        var rest := layers[1..];
        GuardedRouted(rest, req, verify, serves);
        var k :| 0 <= k < |rest| && rest[k].router == d.router && MountMatches(rest[k].mount, req.url)
                 && PassedGates(rest, k, req);
        forall j | 1 <= j <= k + 1 && MountMatches(layers[j].mount, req.url)
          ensures Authz.Permit(layers[j].allowed, req) == Next
        {
          assert layers[j] == rest[j - 1];
        }
        assert layers[k + 1] == rest[k];
        assert PassedGates(layers, k + 1, req);
      } else if d.Routed? {
        assert PassedGates(layers, 0, req);
      }
    }
  }

  /**
   * Behind the token middleware, a request answered was answered by a role gate with its
   * 403, and a request let through is unchanged.
   */
  lemma {:induction false} GuardedAnswered(layers: seq<Layer>, req: Request,
                                           verify: string -> Result<Models.TokenPayload, string>, serves: Serves)
    requires forall i :: 0 <= i < |layers| ==> layers[i].Guarded?
    ensures var d := Dispatch(layers, req, verify, serves);
            d.Answered? ==> d.response == SendAuthFailure(403, Text(Authz.NOT_IN_ROLE))
    ensures var d := Dispatch(layers, req, verify, serves);
            d.FellThrough? ==> d.req == req
    decreases |layers|
  {
    if layers != [] {
      GuardedAnswered(layers[1..], req, verify, serves);
    }
  }

  /** A stack none of whose layers applies to the path lets the request through untouched. */
  lemma {:induction false} NoLayerApplies(layers: seq<Layer>, req: Request,
                                          verify: string -> Result<Models.TokenPayload, string>, serves: Serves)
    requires forall i :: 0 <= i < |layers| ==>
               if layers[i].TokenGate? then !(layers[i].prefix <= req.url) else !MountMatches(layers[i].mount, req.url)
    ensures Dispatch(layers, req, verify, serves) == FellThrough(req)
    decreases |layers|
  {
    if layers != [] {
      NoLayerApplies(layers[1..], req, verify, serves);
    }
  }

  /** Every path a guarded router's mount applies to is below `/api/`, where the token middleware sits. */
  lemma V1PathsAreApiPaths(url: string)
    requires MountMatches(V1_MOUNT, url)
    ensures TOKEN_GATE.prefix <= url
  {
    assert TOKEN_GATE.prefix == V1_MOUNT[..5];
    if url != V1_MOUNT {
      assert url[..|V1_MOUNT| + 1] == V1_MOUNT + "/";
      assert url[..5] == V1_MOUNT[..5];
    }
  }

  /**
   * A request one of the open routers (authenticate, register, validate-email, the public
   * password-reset routes) has a route for reaches it as it came, before the token
   * middleware: what the verifier would say about any token plays no part.
   */
  lemma PublicRoutesNeedNoToken(req: Request, verify: string -> Result<Models.TokenPayload, string>,
                                other: string -> Result<Models.TokenPayload, string>, serves: Serves)
    requires Dispatch(PublicLayers(), req, verify, serves).Routed?
    ensures Dispatch(RouteTable(), req, verify, serves) == Routed(Dispatch(PublicLayers(), req, verify, serves).router, req)
    ensures Dispatch(RouteTable(), req, verify, serves) == Dispatch(RouteTable(), req, other, serves)
  {
    OpenLayersIgnoreToken(PublicLayers(), req, verify, other, serves);
    DispatchAppend(PublicLayers() + [TOKEN_GATE], GuardedLayers(), req, verify, serves);
    DispatchAppend(PublicLayers(), [TOKEN_GATE], req, verify, serves);
    DispatchAppend(PublicLayers() + [TOKEN_GATE], GuardedLayers(), req, other, serves);
    DispatchAppend(PublicLayers(), [TOKEN_GATE], req, other, serves);
  }

  /** After the open routers, the walk continues at the token middleware with the request unchanged. */
  lemma PastThePublicRouters(req: Request, verify: string -> Result<Models.TokenPayload, string>, serves: Serves)
    requires !Dispatch(PublicLayers(), req, verify, serves).Routed?
    ensures Dispatch(RouteTable(), req, verify, serves) == Dispatch([TOKEN_GATE] + GuardedLayers(), req, verify, serves)
  {
    OpenLayersIgnoreToken(PublicLayers(), req, verify, verify, serves);
    assert RouteTable() == PublicLayers() + ([TOKEN_GATE] + GuardedLayers());
    DispatchAppend(PublicLayers(), [TOKEN_GATE] + GuardedLayers(), req, verify, serves);
  }

  /**
   * Below `/api/`, a request no open router takes is stopped by the token middleware when
   * it carries no token (403) or one the verifier refuses (401); with a good token it goes
   * on to the guarded routers carrying the decoded claims.
   */
  lemma TokenGateDecides(req: Request, verify: string -> Result<Models.TokenPayload, string>, serves: Serves)
    requires !Dispatch(PublicLayers(), req, verify, serves).Routed?
    requires TOKEN_GATE.prefix <= req.url
    ensures TokenFromRequest(req).None? ==>
              Dispatch(RouteTable(), req, verify, serves) == Answered(SendAuthFailure(403, Text(Authentication.NO_TOKEN)))
    ensures TokenFromRequest(req).Some? && verify(TokenFromRequest(req).value).Err? ==>
              Dispatch(RouteTable(), req, verify, serves) ==
              Answered(SendAuthFailure(401, Text(Authentication.TOKEN_REFUSED + " err: " + verify(TokenFromRequest(req).value).error)))
    ensures TokenFromRequest(req).Some? && verify(TokenFromRequest(req).value).Ok? ==>
              Dispatch(RouteTable(), req, verify, serves) ==
              Dispatch(GuardedLayers(), WithToken(req, verify(TokenFromRequest(req).value).value), verify, serves)
  {
    PastThePublicRouters(req, verify, serves);
    assert ([TOKEN_GATE] + GuardedLayers())[1..] == GuardedLayers();
  }

  /**
   * When the guarded routers share one mount, a request routed by the i-th of them passed
   * the role gates of the first i + 1.
   */
  lemma {:induction false} SharedMountGates(g: seq<Layer>, q: Request,
                                            verify: string -> Result<Models.TokenPayload, string>, serves: Serves)
    requires forall k :: 0 <= k < |g| ==> g[k].Guarded?
    requires forall k :: 0 <= k < |g| ==> g[k].mount == g[0].mount
    requires Dispatch(g, q, verify, serves).Routed?
    ensures Dispatch(g, q, verify, serves).req == q
    ensures exists i :: 0 <= i < |g| && g[i].router == Dispatch(g, q, verify, serves).router
                        && forall j :: 0 <= j <= i ==> Authz.Permit(g[j].allowed, q) == Next
  {
    GuardedRouted(g, q, verify, serves);
    var i :| 0 <= i < |g| && g[i].router == Dispatch(g, q, verify, serves).router
             && MountMatches(g[i].mount, q.url) && PassedGates(g, i, q);
    forall j | 0 <= j <= i
      ensures Authz.Permit(g[j].allowed, q) == Next
    {
      assert MountMatches(g[j].mount, q.url);
    }
  }

  /**
   * Among the guarded routers, a request routed carries a role of the restricted user
   * router's list (the first gate below `/api/v1` stops everyone else); a router behind
   * `permit('admin')` is reached only with the admin role, and the restricted organization
   * router only with a role of its list; so a request whose claims hold none of admin,
   * supplier-editor and product-editor, a guest's, reaches only the restricted user router.
   */
  lemma GuardedRouterRoles(q: Request, verify: string -> Result<Models.TokenPayload, string>, serves: Serves)
    requires Dispatch(GuardedLayers(), q, verify, serves).Routed?
    ensures var d := Dispatch(GuardedLayers(), q, verify, serves);
            && d.req == q
            && Authz.Permit(RESTRICTED_USER_ROLES, q) == Next
            && (d.router != RestrictedUserRouter && d.router != RestrictedOrganizationRouter ==>
                  Authz.Permit(ADMIN_ONLY, q) == Next)
            && (d.router == RestrictedOrganizationRouter ==> Authz.Permit(RESTRICTED_ORGANIZATION_ROLES, q) == Next)
            && (Authz.Permit(RESTRICTED_ORGANIZATION_ROLES, q) != Next ==> d.router == RestrictedUserRouter)
  {
    var g := GuardedLayers();
    SharedMountGates(g, q, verify, serves);
    var r := Dispatch(g, q, verify, serves).router;
    var i :| 0 <= i < |g| && g[i].router == r && forall j :: 0 <= j <= i ==> Authz.Permit(g[j].allowed, q) == Next;
    assert Authz.Permit(g[0].allowed, q) == Next;
    if i >= 1 {
      assert Authz.Permit(g[1].allowed, q) == Next;
    }
    if i >= 2 {
      assert Authz.Permit(g[i].allowed, q) == Next;
    }
  }

  /**
   * A request a guarded router handles came through the token middleware with a token the
   * verifier accepted, and reaches the router carrying its claims.
   */
  lemma GuardedRoutesNeedToken(req: Request, verify: string -> Result<Models.TokenPayload, string>, serves: Serves)
    requires !Dispatch(PublicLayers(), req, verify, serves).Routed?
    requires Dispatch(RouteTable(), req, verify, serves).Routed?
    ensures TokenFromRequest(req).Some? && verify(TokenFromRequest(req).value).Ok?
    ensures var claims := verify(TokenFromRequest(req).value).value;
            Dispatch(RouteTable(), req, verify, serves) == Dispatch(GuardedLayers(), WithToken(req, claims), verify, serves)
  {
    PastThePublicRouters(req, verify, serves);
    var g := GuardedLayers();
    assert ([TOKEN_GATE] + g)[1..] == g;
    if !(TOKEN_GATE.prefix <= req.url) {
      GuardedRouted(g, req, verify, serves);
      var i :| 0 <= i < |g| && g[i].router == Dispatch(g, req, verify, serves).router && MountMatches(g[i].mount, req.url);
      V1PathsAreApiPaths(req.url);
      assert false;
    }
  }

  /** How the application answers, once a request has walked the stack. */
  datatype Reply =
    | Delegated(router: RouterName, req: Request)
    | Replied(response: Response)
      /** Express's own final handler: no layer and no handler took the request. */
    | NoHandler

  const NOT_FOUND := "No router was found for your request, page not found.  Requested Page: "

  /**
   * The error the catch-all GET handler throws: a plain object with a message and status
   * 404, so it has neither a name nor a stack.
   */
  function NotFoundError(url: string): (e: ErrorValue)
    ensures e.status == Some(404) && e.message == Some(NOT_FOUND + url) && e.name != "JWTExpressError"
  {
    ErrorValue("", Some(NOT_FOUND + url), Some(404), "")
  }

  /**
   * The whole application after `routes()`: the stack, then `handlers()` (`GET /api`
   * answers the description of the API, any other GET throws the not-found error), then
   * the error handler registered last, which answers that error. A request of another
   * method that nothing took is left to Express.
   */
  function Serve(stack: seq<Layer>, req: Request, verify: string -> Result<Models.TokenPayload, string>,
                 serves: Serves, returnCallStackOnError: bool): (r: Reply)
    ensures Dispatch(stack, req, verify, serves).Routed? ==>
              r == Delegated(Dispatch(stack, req, verify, serves).router, Dispatch(stack, req, verify, serves).req)
    ensures Dispatch(stack, req, verify, serves).Answered? ==> r == Replied(Dispatch(stack, req, verify, serves).response)
    ensures r.Replied? && r.response.status == 200 ==> r.response.body == ApiInfo || Dispatch(stack, req, verify, serves).Answered?
    ensures r.NoHandler? <==> Dispatch(stack, req, verify, serves).FellThrough? && req.verb != "GET"
    ensures Dispatch(stack, req, verify, serves).FellThrough? && req.verb == "GET" && req.url != "/api" ==>
              && r.Replied? && r.response.status == 404
              && r.response.body.HandledError? && r.response.body.status == 404
              && r.response.body.message == NOT_FOUND + req.url
  {
    match Dispatch(stack, req, verify, serves)
    case Routed(router, q) => Delegated(router, q)
    case Answered(response) => Replied(response)
    case FellThrough(q) =>
      if q.verb == "GET" && q.url == Constants.API then Replied(Response(200, ApiInfo))
      else if q.verb == "GET" then Replied(HandleApiError(NotFoundError(q.url), q, returnCallStackOnError))
      else NoHandler
  }

  /** `GET /api` reaches the description of the API with or without a token. */
  lemma ApiDescriptionIsOpen(req: Request, verify: string -> Result<Models.TokenPayload, string>, serves: Serves,
                             returnCallStackOnError: bool)
    requires req.verb == "GET" && req.url == Constants.API
    ensures Serve(RouteTable(), req, verify, serves, returnCallStackOnError) == Replied(Response(200, ApiInfo))
  {
    var t := RouteTable();
    forall i | 0 <= i < |t|
      ensures if t[i].TokenGate? then !(t[i].prefix <= req.url) else !MountMatches(t[i].mount, req.url)
    {
      if !t[i].TokenGate? {
        assert |t[i].mount| > |req.url|;
      }
    }
    NoLayerApplies(t, req, verify, serves);
  }

  /** The Express application: the stack of layers it has been configured with. */
  class Application {
    var stack: seq<Layer>

    /** The constructor's configuration, as far as the routers go: `routes()` on an empty stack. */
    constructor ()
      ensures stack == RouteTable()
    {
      stack := [];
      new;
      Routes();
    }

    /** `express.use(...)`: one more layer at the end of the stack. */
    method Use(layer: Layer)
      modifies this
      ensures stack == old(stack) + [layer]
    {
      stack := stack + [layer];
    }

    /** `routes()`: the open routers, the token middleware, then the guarded routers, in that order. */
    method Routes()
      modifies this
      ensures stack == old(stack) + RouteTable()
    {
      OpenRoutes();
      LockedRoutes();
    }

    /** The first part of `routes()`: the open endpoints. */
    method OpenRoutes()
      modifies this
      ensures stack == old(stack) + PublicLayers()
    {
      Use(Public(V1_MOUNT + Constants.AUTHENTICATION, AuthenticationRouter));
      Use(Public(V1_MOUNT + Constants.REGISTER, RegistrationRouter));
      Use(Public(V1_MOUNT + Constants.VALIDATE_EMAIL, EmailVerificationPublicRouter));
      Use(Public(V1_MOUNT, PasswordResetTokenPublicRouter));
    }

    /** The rest of `routes()`: the token middleware, then each guarded router behind its role gate. */
    method LockedRoutes()
      modifies this
      ensures stack == old(stack) + [TOKEN_GATE] + GuardedLayers()
    {
      Use(TOKEN_GATE);
      Use(Guarded(V1_MOUNT, RESTRICTED_USER_ROLES, RestrictedUserRouter));
      Use(Guarded(V1_MOUNT, RESTRICTED_ORGANIZATION_ROLES, RestrictedOrganizationRouter));
      Use(Guarded(V1_MOUNT, ADMIN_ONLY, EmailVerificationRouter));
      Use(Guarded(V1_MOUNT, ADMIN_ONLY, OrganizationRouter));
      Use(Guarded(V1_MOUNT, ADMIN_ONLY, UserRouter));
      Use(Guarded(V1_MOUNT, ADMIN_ONLY, RoleRouter));
      Use(Guarded(V1_MOUNT, ADMIN_ONLY, PermissionRouter));
      Use(Guarded(V1_MOUNT, ADMIN_ONLY, PasswordResetTokenRouter));
      GuardedLayersInOrder();
    }
  }

  /** `sub` occurs in `s` starting at index `i`. */
  predicate OccursAt(s: string, sub: string, i: int)
  {
    0 <= i && i + |sub| <= |s| && s[i..i + |sub|] == sub
  }

  /** `s.includes(sub)`: `sub` occurs somewhere in `s`. */
  function Includes(s: string, sub: string): (b: bool)
    ensures b <==> exists i :: OccursAt(s, sub, i)
    decreases |s|
  {
    if sub <= s then
      assert OccursAt(s, sub, 0);
      true
    else if |s| == 0 then
      assert forall i :: !OccursAt(s, sub, i);
      false
    else
      var r := Includes(s[1..], sub);
      assert r ==> exists i :: OccursAt(s, sub, i) by {
        if r {
          var i :| OccursAt(s[1..], sub, i);
          assert s[i + 1..i + 1 + |sub|] == s[1..][i..i + |sub|];
          assert OccursAt(s, sub, i + 1);
        }
      }
      assert (exists i :: OccursAt(s, sub, i)) ==> r by {
        if exists i :: OccursAt(s, sub, i) {
          var i :| OccursAt(s, sub, i);
          assert i != 0;
          assert s[1..][i - 1..i - 1 + |sub|] == s[i..i + |sub|];
          assert OccursAt(s[1..], sub, i - 1);
        }
      }
      r
  }

  /**
   * `skipHealthCheck`: the request log leaves out a request exactly when its URL mentions
   * the health check and it was answered 200; a failed health check is still logged.
   */
  function SkipHealthCheck(originalUrl: string, statusCode: int): (skip: bool)
    ensures skip <==> statusCode == 200 && exists i :: OccursAt(originalUrl, "healthcheck", i)
  {
    Includes(originalUrl, "healthcheck") && statusCode == 200
  }

  /** The health check's own successful requests are left out of the log, and nothing that failed is. */
  lemma SkipHealthCheckCases(originalUrl: string, statusCode: int)
    ensures SkipHealthCheck("/healthcheck", 200)
    ensures statusCode != 200 ==> !SkipHealthCheck(originalUrl, statusCode)
    ensures SkipHealthCheck(originalUrl, statusCode) ==> |originalUrl| >= |"healthcheck"|
  {
    assert "/healthcheck"[1..12] == "healthcheck";
  }
}

=== FILE: store.dfy ===
/**
 * The document store: one collection per document kind, keyed by id, with the unique
 * indexes and required fields the schemas declare. Saving a new document hands out the
 * next id; a save that would break a unique index or omit a required field is refused,
 * as the database refuses it, and leaves the store unchanged.
 */
module Store {
  import opened Wrappers
  import opened Identifiers
  import opened Models
  import opened Http

  /**
   * A set of ids holding `x` has a least element: if something in it is below `x`, look
   * below that; otherwise `x` is the least.
   */
  lemma {:induction false} LeastExists(s: set<Id>, x: Id)
    requires x in s
    ensures exists k :: k in s && forall j :: j in s ==> k <= j
    decreases x
  {
    if y :| y in s && y < x {
      LeastExists(s, y);
    } else {
      assert forall j :: j in s ==> x <= j;
    }
  }

  function Least(s: set<Id>): (k: Id)
    requires s != {}
    ensures k in s && forall j :: j in s ==> k <= j
  {
    var x :| x in s;
    LeastExists(s, x);
    var k :| k in s && forall j :: j in s ==> k <= j;
    k
  }

  /**
   * `findOne(filter)`: the first document, in id (insertion) order, that satisfies the
   * filter, or nothing when none does.
   */
  function FindOne<T>(m: map<Id, T>, filter: T -> bool): (r: Option<Id>)
    ensures r.Some? ==> r.value in m && filter(m[r.value])
    ensures r.Some? ==> forall k :: k in m && filter(m[k]) ==> r.value <= k
    ensures r.None? <==> forall k :: k in m ==> !filter(m[k])
  {
    var matching := set k | k in m && filter(m[k]);
    if matching == {} then
      assert forall k :: k in m ==> !filter(m[k]) by {
        forall k | k in m ensures !filter(m[k]) {
          assert k !in matching;
        }
      }
      None
    else
      var least := Least(matching);
      assert forall k :: k in m && filter(m[k]) ==> least <= k by {
        forall k | k in m && filter(m[k]) ensures least <= k {
          assert k in matching;
        }
      }
      Some(least)
  }

  class Store {
    var users: map<Id, User>
    var organizations: map<Id, Organization>
    var roles: map<Id, Role>
    var permissions: map<Id, Permission>
    var verifications: map<Id, EmailVerification>
    /** The id the next saved document receives; every id in use is below it. */
    var nextId: Id

    ghost predicate Valid()
      reads this
    {
      && (forall k :: k in users ==> k < nextId)
      && (forall k :: k in organizations ==> k < nextId)
      && (forall k :: k in roles ==> k < nextId)
      && (forall k :: k in permissions ==> k < nextId)
      && (forall k :: k in verifications ==> k < nextId)
      && UniqueEmails(users)
      && UniqueOrgNames(organizations)
      && PasswordsStored(users)
    }

    /** An empty database. */
    constructor ()
      ensures Valid()
      ensures users == map[] && organizations == map[] && roles == map[]
      ensures permissions == map[] && verifications == map[]
    {
      users, organizations, roles, permissions, verifications := map[], map[], map[], map[], map[];
      nextId := 0;
    }

    /** Saving a new user: refused without a password, or when the email is taken. */
    method InsertUser(u: User) returns (r: Result<Id, Fault>)
      requires Valid()
      modifies this
      ensures Valid()
      ensures u.password == None ==> r == Err(ValidationError)
      ensures u.password != None && EmailTaken(old(users), u.email) ==> r == Err(DuplicateKey)
      ensures r.Ok? <==> u.password != None && !EmailTaken(old(users), u.email)
      ensures r.Ok? ==> r.value == old(nextId) && r.value !in old(users)
      ensures r.Ok? ==> users == old(users)[r.value := u] && nextId == old(nextId) + 1
      ensures r.Err? ==> users == old(users) && nextId == old(nextId)
      ensures organizations == old(organizations) && roles == old(roles)
      ensures permissions == old(permissions) && verifications == old(verifications)
    {
      if u.password == None {
        return Err(ValidationError);
      }
      if EmailTaken(users, u.email) {
        return Err(DuplicateKey);
      }
      AddUserKeepsUniqueEmails(users, nextId, u);
      users := users[nextId := u];
      r := Ok(nextId);
      nextId := nextId + 1;
    }

    /** Saving a new organization: refused when the name is taken. */
    method InsertOrganization(o: Organization) returns (r: Result<Id, Fault>)
      requires Valid()
      modifies this
      ensures Valid()
      ensures r.Ok? <==> !OrgNameTaken(old(organizations), o.name)
      ensures r.Err? ==> r.error == DuplicateKey
      ensures r.Ok? ==> r.value == old(nextId) && r.value !in old(organizations)
      ensures r.Ok? ==> organizations == old(organizations)[r.value := o] && nextId == old(nextId) + 1
      ensures r.Err? ==> organizations == old(organizations) && nextId == old(nextId)
      ensures users == old(users) && roles == old(roles)
      ensures permissions == old(permissions) && verifications == old(verifications)
    {
      if OrgNameTaken(organizations, o.name) {
        return Err(DuplicateKey);
      }
      AddOrganizationKeepsUniqueNames(organizations, nextId, o);
      organizations := organizations[nextId := o];
      r := Ok(nextId);
      nextId := nextId + 1;
    }

    method InsertRole(role: Role) returns (id: Id)
      requires Valid()
      modifies this
      ensures Valid()
      ensures id == old(nextId) && id !in old(roles)
      ensures roles == old(roles)[id := role] && nextId == old(nextId) + 1
      ensures users == old(users) && organizations == old(organizations)
      ensures permissions == old(permissions) && verifications == old(verifications)
    {
      id := nextId;
      roles := roles[id := role];
      nextId := nextId + 1;
    }

    method InsertPermission(p: Permission) returns (id: Id)
      requires Valid()
      modifies this
      ensures Valid()
      ensures id == old(nextId) && id !in old(permissions)
      ensures permissions == old(permissions)[id := p] && nextId == old(nextId) + 1
      ensures users == old(users) && organizations == old(organizations)
      ensures roles == old(roles) && verifications == old(verifications)
    {
      id := nextId;
      permissions := permissions[id := p];
      nextId := nextId + 1;
    }

    method InsertVerification(v: EmailVerification) returns (id: Id)
      requires Valid()
      modifies this
      ensures Valid()
      ensures id == old(nextId) && id !in old(verifications)
      ensures verifications == old(verifications)[id := v] && nextId == old(nextId) + 1
      ensures users == old(users) && organizations == old(organizations)
      ensures roles == old(roles) && permissions == old(permissions)
    {
      id := nextId;
      verifications := verifications[id := v];
      nextId := nextId + 1;
    }

    /**
     * Saving an existing user with new field values: refused without a password, or when
     * the new email belongs to another user.
     */
    method SaveUser(id: Id, u: User) returns (r: Result<Id, Fault>)
      requires Valid() && id in users
      modifies this
      ensures Valid()
      ensures r.Ok? <==> u.password != None && !EmailTaken(old(users) - {id}, u.email)
      ensures r.Ok? ==> r.value == id && users == old(users)[id := u]
      ensures r.Err? ==> users == old(users)
      ensures nextId == old(nextId) && organizations == old(organizations) && roles == old(roles)
      ensures permissions == old(permissions) && verifications == old(verifications)
    {
      var others := users - {id};
      if u.password == None {
        return Err(ValidationError);
      }
      if EmailTaken(others, u.email) {
        return Err(DuplicateKey);
      }
      AddUserKeepsUniqueEmails(others, id, u);
      assert others[id := u] == users[id := u];
      users := users[id := u];
      r := Ok(id);
    }

    /** Saving an existing organization: refused when the new name belongs to another one. */
    method SaveOrganization(id: Id, o: Organization) returns (r: Result<Id, Fault>)
      requires Valid() && id in organizations
      modifies this
      ensures Valid()
      ensures r.Ok? <==> !OrgNameTaken(old(organizations) - {id}, o.name)
      ensures r.Ok? ==> r.value == id && organizations == old(organizations)[id := o]
      ensures r.Err? ==> organizations == old(organizations)
      ensures nextId == old(nextId) && users == old(users) && roles == old(roles)
      ensures permissions == old(permissions) && verifications == old(verifications)
    {
      var others := organizations - {id};
      if OrgNameTaken(others, o.name) {
        return Err(DuplicateKey);
      }
      AddOrganizationKeepsUniqueNames(others, id, o);
      assert others[id := o] == organizations[id := o];
      organizations := organizations[id := o];
      r := Ok(id);
    }
  }
}

=== FILE: user_controller.dfy ===
/**
 * The user upgrade workflow of server/controllers/user.controller.ts: a guest asks to
 * become a supplier editor; a new supplier organization is created around it and the
 * user is moved into it with the extra role.
 */
module UserController {
  import opened Wrappers
  import opened Identifiers
  import opened Enumerations
  import opened Models
  import opened Http
  import opened Store
  import opened Repositories
  import opened ApiErrorHandler
  import Constants

  /** The request body: the user to upgrade, the new organization's name and the role. */
  datatype UpgradeRequest = UpgradeRequest(userId: string, organizationName: string, roleName: string)

  const NOT_UPGRADABLE_ROLE := "You can only upgrade to specific roles.  This isnt one of them"
  const ORG_NAME_EXISTS := "An organization with that name already exists"
  const NO_SUCH_USER := "Could not find a user with that userID"
  const NO_SUCH_ROLE := "Could not find a role with that name"
  const UPGRADE_FAILED := "There was an error with the upgrade user request"

  /**
   * The checks `upgradeUser` makes before changing anything, in order: the role must be
   * the supplier editor role, the organization name must be free, the user must exist
   * (an id that is not one raises, and is answered as any failure is) and the role must
   * exist. The result is the user's and the role's ids, or the 400 response sent.
   */
  function UpgradeCheck(users: map<Id, User>, roles: map<Id, Role>, permissions: map<Id, Permission>,
                        organizations: map<Id, Organization>, req: UpgradeRequest): (r: Result<(Id, Id), Response>)
    ensures r.Err? ==> r.error.status == 400
    ensures req.roleName != Constants.SUPPLIER_EDITOR_ROLE ==> r == Err(SendError(NOT_UPGRADABLE_ROLE, 400, None, None))
    ensures req.roleName == Constants.SUPPLIER_EDITOR_ROLE && OrgNameTaken(organizations, req.organizationName) ==>
              r == Err(SendError(ORG_NAME_EXISTS, 400, Some(Constants.ORG_NAME_TAKEN), None))
    ensures r.Ok? <==>
              && req.roleName == Constants.SUPPLIER_EDITOR_ROLE
              && !OrgNameTaken(organizations, req.organizationName)
              && ParseId(req.userId).Some? && ParseId(req.userId).value in users
              && GetRoleByName(roles, req.roleName).Some?
    ensures r.Ok? ==> r.value.0 == ParseId(req.userId).value && r.value.1 == GetRoleByName(roles, req.roleName).value.id
    ensures req.roleName == Constants.SUPPLIER_EDITOR_ROLE && !OrgNameTaken(organizations, req.organizationName) ==>
              && (ParseId(req.userId).None? ==> r == Err(SendError(UPGRADE_FAILED, 400, None, Some(CastError))))
              && (ParseId(req.userId).Some? && ParseId(req.userId).value !in users ==>
                    r == Err(SendError(NO_SUCH_USER, 400, None, None)))
              && ((ParseId(req.userId).Some? && ParseId(req.userId).value in users &&
                   GetRoleByName(roles, req.roleName).None?) ==> r == Err(SendError(NO_SUCH_ROLE, 400, None, None)))
  {
    if req.roleName != Constants.SUPPLIER_EDITOR_ROLE then
      Err(SendError(NOT_UPGRADABLE_ROLE, 400, None, None))
    else if GetOrgByName(organizations, req.organizationName).Some? then
      Err(SendError(ORG_NAME_EXISTS, 400, Some(Constants.ORG_NAME_TAKEN), None))
    else
      match SingleUser(users, roles, permissions, req.userId)
      case Err(fault) => Err(SendError(UPGRADE_FAILED, 400, None, Some(fault)))
      case Ok(None) => Err(SendError(NO_SUCH_USER, 400, None, None))
      case Ok(Some(loaded)) =>
        match GetRoleByName(roles, req.roleName)
        case None => Err(SendError(NO_SUCH_ROLE, 400, None, None))
        case Some(role) => Ok((loaded.id, role.id))
  }

  /** The organization the upgrade creates: a non-system supplier with the user as member. */
  function SupplierOrganization(name: string, userId: Id): (o: Organization)
    ensures o.name == name && o.orgType == OrganizationType.SupplierOrganization && !o.isSystem
    ensures o.users == [userId] && o.ownerships == [] && o.href == None
  {
    Organization(name, OrganizationType.SupplierOrganization, false, [userId], [], None)
  }

  /** The upgraded user: one more role, and the new organization. */
  function Upgraded(u: User, roleId: Id, orgId: Id): (r: User)
    ensures r.roles == u.roles + [roleId] && r.organizationId == Some(orgId)
    ensures r.(roles := u.roles, organizationId := u.organizationId) == u
  {
    u.(roles := u.roles + [roleId], organizationId := Some(orgId))
  }

  /**
   * `upgradeUser`: a request failing a check is answered 400 and changes nothing;
   * otherwise the supplier organization is saved, the user gains the role and joins it,
   * and the answer is 202 with the new organization's id.
   */
  method UpgradeUser(store: Store, req: UpgradeRequest) returns (response: Response)
    requires store.Valid()
    modifies store
    ensures store.Valid()
    ensures var check := UpgradeCheck(old(store.users), old(store.roles), old(store.permissions),
                                      old(store.organizations), req);
            && (check.Err? ==>
                  && response == check.error && store.users == old(store.users)
                  && store.organizations == old(store.organizations) && store.nextId == old(store.nextId))
            && (check.Ok? ==>
                  var (userId, roleId) := check.value;
                  var orgId := old(store.nextId);
                  && response == Response(202, UpgradeAccepted(orgId))
                  && store.organizations == old(store.organizations)[orgId := SupplierOrganization(req.organizationName, userId)]
                  && store.users == old(store.users)[userId := Upgraded(old(store.users)[userId], roleId, orgId)]
                  && store.nextId == old(store.nextId) + 1)
    ensures store.roles == old(store.roles) && store.permissions == old(store.permissions)
    ensures store.verifications == old(store.verifications)
  {
    var check := UpgradeCheck(store.users, store.roles, store.permissions, store.organizations, req);
    if check.Err? {
      return check.error;
    }
    var (userId, roleId) := check.value;
    var created := store.InsertOrganization(SupplierOrganization(req.organizationName, userId));
    // The name was found free, so the save succeeds; so does the user's below, whose
    // email is unchanged.
    assert created.Ok?;
    var orgId := created.value;
    var user := Upgraded(store.users[userId], roleId, orgId);
    var updated := store.SaveUser(userId, user);
    assert updated.Ok?;
    response := Response(202, UpgradeAccepted(orgId));
  }

  /**
   * Only the supplier editor role can be obtained by upgrading, and never without a
   * fresh organization name: a request naming any other role, or a taken name, is refused.
   */
  lemma UpgradeOnlyToSupplierEditor(users: map<Id, User>, roles: map<Id, Role>, permissions: map<Id, Permission>,
                                    organizations: map<Id, Organization>, req: UpgradeRequest)
    requires UpgradeCheck(users, roles, permissions, organizations, req).Ok?
    ensures req.roleName == Constants.SUPPLIER_EDITOR_ROLE
    ensures !OrgNameTaken(organizations, req.organizationName)
    ensures roles[UpgradeCheck(users, roles, permissions, organizations, req).value.1].name == Constants.SUPPLIER_EDITOR_ROLE
  {
  }

  /**
   * After an upgrade the user and its organization point at each other: the user's
   * organization is the new one, which lists the user, and the user keeps every role it had.
   */
  lemma {:induction false} UpgradeLinksUserAndOrganization(u: User, name: string, userId: Id, roleId: Id, orgId: Id)
    ensures var upgraded := Upgraded(u, roleId, orgId);
            var org := SupplierOrganization(name, userId);
            && upgraded.organizationId == Some(orgId)
            && userId in org.users
            && (forall r :: r in u.roles ==> r in upgraded.roles)
            && roleId in upgraded.roles
            && |upgraded.roles| == |u.roles| + 1
  {
    var upgraded := Upgraded(u, roleId, orgId);
    assert upgraded.roles[|u.roles|] == roleId;
    forall r | r in u.roles
      ensures r in upgraded.roles
    {
      var i :| 0 <= i < |u.roles| && u.roles[i] == r;
      assert upgraded.roles[i] == r;
    }
  }
}

=== FILE: wrappers.dfy ===
/** Optional values and results with an error channel, used throughout the model. */
module Wrappers {

  /** A value that may be absent: `undefined`/`null` in the source. */
  datatype Option<+T> = None | Some(value: T)

  /** The outcome of a step that can fail: the source's thrown errors and early error returns. */
  datatype Result<+T, +E> = Ok(value: T) | Err(error: E)
}
